=== FILE: README.md ===
# bevy-2d-particle-sim in Dafny

A model of the decision logic of a small 2-D ball simulation. Two systems are modelled.

- **The per-tick `collider`** (`src/particle_sim.rs`). It runs in four stages:
  1. An all-pairs scan records ball contacts and wall contacts.
  2. `Vec::dedup_by` prunes the list with a three-way predicate.
  3. Every retained contact is resolved in list order. A wall contact forces the sign of one velocity component. A ball contact gives a mass-weighted elastic velocity update plus a de-penetration push.
  4. Every ball is integrated and clamped into the viewport, shrunk by its radius less 0.1.
- **The setup-time packer `pack_balls`** (`src/ball.rs`). Phase A is a relaxation loop. Phase B marks balls for deletion until no two unmarked balls overlap. The model also covers `create_balls` and `space_balls`, which produce the packer's input.

How the model represents the source:

- Coordinates are reals.
- Radii, masses and entity ids are naturals. An entity is its index in the query's iteration order; nothing is spawned or despawned while either system runs.
- Parallel iteration is flattened into nested loops in iteration order.
- The camera's viewport corners, the Euclidean `length` (a square root) and the relaxation impulse are parameters.
- Random draws are nondeterministic choices from the ranges the code samples.

Modules:

| file | module | models |
|---|---|---|
| wrappers.dfy | `Wrappers` | the optional result of the wall check |
| geometry.dfy | `Geometry` | vectors, glam's `clamp`, squared distance |
| balls.dfy | `Balls` | ball records, `Wall`, `CollisionType`, contacts, the overlap test |
| detection.dfy | `Detection` | the contact scan |
| dedup.dfy | `Dedup` | `dedup_by` with the collider's predicate |
| response.dfy | `Response` | wall reflection and ball-ball response |
| collider.dfy | `Collider` | integration clamp and the whole tick |
| packing.dfy | `Packing` | `pack_balls`, Phase A and Phase B |
| setup.dfy | `Setup` | `create_balls`, `space_balls`, the simulation parameters |

### Behaviour of the code worth knowing

The model follows the code in each of these cases. Each one is pinned down by a lemma.

- **Dedup only compares neighbours.** `Vec::dedup_by` (particle_sim.rs:126-138) compares each entry with the last one kept, not with its raw predecessor. The mirror (B, Entity A) of a ball contact is dropped exactly when that last kept entry is an entry of B, the report (A, Entity B), or any ball's contact with A (`Dedup.MirrorDroppedIff`). An entry in between that is itself dropped changes nothing: with ball 0 overlapping balls 1 and 2, the mirror (1, Entity 0) is still dropped (`Dedup.DedupDropsMirrorPastDroppedEntry`). The mirror survives exactly when the entry kept last before it is none of these three. That happens with two disjoint overlapping pairs, and then both reports are resolved (`Dedup.DedupKeepsSeparatedMirrors`, `Response.ResolveEntityMirror`). A kept entry of B in between does not save the mirror (`Dedup.DedupDropsMirrorPastOwnWall`).
- **Dedup can drop a second ball's wall contact.** The last disjunct `a.1 == b.1` (particle_sim.rs:137) ignores the subject. A wall contact (i, Wall w) is dropped exactly when the last kept entry is an entry of ball i or any ball's contact with wall w (`Dedup.WallDroppedIff`). So when nothing is kept between two balls' entries for the same wall, the second is dropped, and that ball is not reflected that tick (`Dedup.DedupDropsSecondBallsWall`, `Collider.SecondBallWallIgnored`). A kept entry in between that is neither ball i's own entry nor a contact with the same wall lets it survive (`Dedup.DedupKeepsSeparatedWalls`). A kept entry of ball i in between does not (`Dedup.DedupDropsWallPastOwnContact`).
- **One retained contact per ball, in scan order.** When the raw list is in the row-major order of the nested loops, each ball's entries form one run. Then dedup keeps at most one entry per ball (`Detection.DetectSorted`, `Collider.ContactsSubjectsDistinct`). The parallel loops of particle_sim.rs:70-122 can interleave pushes from different rows, and then a ball can be the subject of two retained contacts; see "## Left out".
- **Phase A runs its body once and moves nothing.** `spaced` is set to true at ball.rs:141 and again at ball.rs:152, and nothing in Phase A sets it back to false. So the loop of ball.rs:128 runs its body exactly once. The map it drains at ball.rs:129 is still empty at that point, and the impulses collected at ball.rs:144-173 are never applied (`Packing.Relax`).
- **Phase B deletes overlapping balls.** Phase B writes no position. For every overlapping pair whose two balls are both unmarked, it despawns `entity2` (ball.rs:196-197) (`Packing.OverlappingPairClearsSecond`).
- **Phase B runs at most two passes.** Positions are fixed, and every pair is checked against the marks current at the time. So the first pass already leaves no two unmarked balls overlapping. A second pass runs only when the first marked something, and it marks nothing (`Packing.ClearOverlaps`).

## Model

| member | source | states |
|---|---|---|
| Geometry.Clamp | src/particle_sim.rs:249-252 | glam's clamp: result never above `hi`, at least `lo` when the interval is non-empty, unchanged inside it, always one of the value, `lo` or `hi`, and `hi` when the interval is empty |
| Balls.OverlapsSymmetric | src/particle_sim.rs:76-79 | the overlap test gives the same answer for (a, b) and (b, a) |
| Detection.WallContact | src/particle_sim.rs:86-119 | no wall entry iff the ball crosses no wall line; otherwise the wall is one it crosses and the first in East, West, South, North order; a ball inside the shrunk box gets no entry |
| Detection.PairContact | src/particle_sim.rs:76-120 | at most one entry per ordered pair, always for entity1, and it is the ball contact exactly when the two are distinct and overlap |
| Detection.InDetect | src/particle_sim.rs:70-122 | an entry is in the raw list exactly when some ordered pair of the query pushed it |
| Detection.DetectEntityIff | src/particle_sim.rs:76-85 | (a, Entity(o)) is recorded iff a and o are distinct balls of the query that overlap; no ball is recorded against itself |
| Detection.DetectWallIff | src/particle_sim.rs:86-119 | (a, Wall(w)) is recorded iff w is the first wall ball a crosses; the self-pairing guarantees the wall check runs |
| Detection.DetectSorted | src/particle_sim.rs:70-122 | in the row-major order of the nested loops, subjects never decrease along the raw list, so each ball's entries form one run |
| Detection.DetectLength | src/particle_sim.rs:70-122 | the raw list holds at most n * n entries |
| Dedup.DedupInPlace | src/particle_sim.rs:126-138 | the read-cursor/write-cursor loop of `dedup_by` computes the same list as the recursive definition |
| Dedup.DedupSpec | src/particle_sim.rs:126-138 | the output is a subsequence of the input, keeps the first entry, and no retained entry matches the predicate against its predecessor |
| Dedup.DedupIdentityWhenChained | src/particle_sim.rs:126-138 | a list with no neighbour pair matching the predicate is left unchanged |
| Dedup.DedupIdempotent | src/particle_sim.rs:126-138 | deduplicating twice is deduplicating once |
| Dedup.DedupKeepsAtMostOneOfRun | src/particle_sim.rs:127 | of a maximal run of entries with one subject, at most one survives, and it is one of the run |
| Dedup.DedupSortedStrict | src/particle_sim.rs:126-138 | a list with non-decreasing subjects dedups to one with strictly increasing subjects |
| Dedup.MirrorDroppedIff | src/particle_sim.rs:127-137 | the mirror (B, Entity A) is dropped iff the last kept entry is an entry of B, the report (A, Entity B), or a contact with A |
| Dedup.WallDroppedIff | src/particle_sim.rs:127-137 | a wall contact (i, Wall w) is dropped iff the last kept entry is an entry of ball i or a contact with wall w |
| Dedup.DedupKeepsSeparatedMirrors | src/particle_sim.rs:128-136 | for two disjoint overlapping pairs, [(0,E2),(1,E3),(2,E0),(3,E1)] is kept whole, so both mirrors survive |
| Dedup.DedupDropsMirrorPastDroppedEntry | src/particle_sim.rs:126-138 | for ball 0 overlapping balls 1 and 2, [(0,E1),(0,E2),(1,E0),(2,E0)] dedups to [(0,E1),(2,E0)]: a dropped entry in between does not save the mirror |
| Dedup.DedupDropsMirrorPastOwnWall | src/particle_sim.rs:127-137 | for balls 1 and 2 overlapping with ball 2 past the East line, [(1,E2),(2,WE),(2,E1),(2,WE)] dedups to [(1,E2),(2,WE)]: ball 2's kept wall entry does not save the mirror |
| Dedup.DedupDropsSecondBallsWall | src/particle_sim.rs:137 | the kind disjunct ignores the subject: ball 1's East-wall entry after ball 0's is dropped |
| Dedup.DedupKeepsSeparatedWalls | src/particle_sim.rs:137 | a third ball's West entry kept between two balls' East entries lets the second East entry survive |
| Dedup.DedupDropsWallPastOwnContact | src/particle_sim.rs:127-137 | for balls 0 and 2 overlapping and both past the East line, the raw row-major list dedups to [(0,WE),(2,E0)]: ball 2's kept ball contact does not save its wall entry |
| Response.Reflect | src/particle_sim.rs:146-167 | only the component normal to the wall changes, it keeps its magnitude and ends pointing away from the wall |
| Response.ReflectFixedPoints | src/particle_sim.rs:146-167 | reflection leaves a velocity alone iff it already points away, so it is idempotent |
| Response.BounceMomentum | src/particle_sim.rs:202-219 | the two velocity formulas, with the mass scalars and opposite normals, keep m1*v1 + m2*v2 in both components |
| Response.PairMomentum | src/particle_sim.rs:189-225 | the velocities a ball contact writes conserve momentum, because both are computed from the pre-contact snapshot |
| Response.PushesAlongNormals | src/particle_sim.rs:205-238 | the two collision normals are exact negations; each ball is pushed along its own normal and one unit up in z |
| Response.ResolveEntity | src/particle_sim.rs:169-238 | resolving a ball contact changes no size or mass and touches no third ball |
| Response.ResolveEntitySnapshot | src/particle_sim.rs:180-238 | after the four writes the two balls carry the snapshot's momentum, and each has moved along its normal and one unit up in z |
| Response.ResolveEntityMirror | src/particle_sim.rs:169-238 | resolving (s, Entity(o)) and (o, Entity(s)) writes identical values |
| Response.EqualMassHeadOnSwap | src/particle_sim.rs:195-219 | equal masses meeting head-on with opposite velocities swap velocities, at a centre distance of at least 1, where the `max(1.)` floor on the squared distance does not apply |
| Response.ResolveContact | src/particle_sim.rs:143-240 | one response keeps sizes and masses, touches only the balls it names, and a wall response keeps the position and turns the velocity away |
| Response.ResolveAll | src/particle_sim.rs:139-242 | resolving the list in order keeps sizes and masses and leaves every ball no contact names untouched |
| Collider.Integrate | src/particle_sim.rs:248-252 | velocity, size and mass are kept and z becomes 1; x and y land within the box shrunk by radius less 0.1 when it is non-empty, and a ball whose step stays inside moves by exactly its velocity |
| Collider.IntegrateAll | src/particle_sim.rs:244-253 | every ball keeps its velocity, size and mass, ends at z = 1 inside the box shrunk by its radius less 0.1 when that box is non-empty, and moves by exactly its velocity when the step stays inside |
| Collider.ContactsOverlap | src/particle_sim.rs:76-85 | every retained ball contact joins two distinct balls of the query that overlap |
| Collider.ContactsResolvable | src/particle_sim.rs:169-203 | every retained contact names balls of the query, and a ball contact's radii (always) and masses (under the no-massless-pair precondition) do not both vanish, so neither denominator is zero |
| Collider.Collide | src/particle_sim.rs:124-253 | one tick keeps every size and mass and puts every ball at z = 1 |
| Collider.CollideInBounds | src/particle_sim.rs:248-252 | after the tick every ball lies in the viewport shrunk by its radius less 0.1, whenever that box is non-empty |
| Collider.ContactsSubjectsDistinct | src/particle_sim.rs:126-138 | when the raw list is in row-major scan order, each ball is the subject of at most one response per tick after dedup |
| Collider.CollideFreeBall | src/particle_sim.rs:76-253 | a ball that overlaps nothing and crosses no wall line is just integrated |
| Collider.EastWallBounce | src/particle_sim.rs:89-156 | a radius-10 ball at x = 95 moving +5 in a ±100 box bounces to velocity (-5, 0) and ends at x = 90 |
| Collider.SecondBallWallIgnored | src/particle_sim.rs:126-138 | of two separate balls past the same wall line, only the first is reflected; the second keeps its velocity and is only clamped |
| Packing.ScanFrom | src/ball.rs:181-201 | a scan only appends to the marks |
| Packing.ScanSettles | src/ball.rs:179-202 | a scan leaves no clashing pair, given that the pairs before its start have none |
| Packing.ScanKeepsSettled | src/ball.rs:179-202 | a scan over settled marks marks nothing |
| Packing.MarkJustified | src/ball.rs:183-197 | marking entity2 of a clashing pair is fair: it is unmarked and has a distinct unmarked overlapping partner |
| Packing.ScanJustified | src/ball.rs:183-197 | a scan makes only fair marks |
| Packing.JustifiedDistinct | src/ball.rs:188-197 | fair marks never repeat an entity |
| Packing.FirstPassSettles | src/ball.rs:176-202 | the first pass leaves no two distinct unmarked balls overlapping, marks fairly and without repeats, and a second pass marks nothing |
| Packing.MarkedOnlyIfTouching | src/ball.rs:183-197 | only a ball that overlaps another ball is ever marked |
| Packing.SomeSurvivor | src/ball.rs:183-197 | whenever there is a ball, some ball stays unmarked |
| Packing.ScanPass | src/ball.rs:180-201 | the nested loops compute one pass, and they report a mark exactly when the mark list grew |
| Packing.ClearOverlaps | src/ball.rs:176-202 | Phase B ends settled with fair, distinct marks: one pass when nothing is marked, two otherwise |
| Packing.ApplyImpulse | src/ball.rs:136-139 | an applied impulse keeps velocity, size and mass, puts x and y within the box shrunk by the radius when it is non-empty, and gives z = 0 |
| Packing.ApplyPending | src/ball.rs:129-140 | draining keeps every velocity, size and mass; each ball with a pending impulse ends at z = 0 inside the viewport shrunk by its radius when that box is non-empty; every other ball is untouched |
| Packing.AccumulateImpulses | src/ball.rs:144-173 | the scan records an impulse for exactly the balls that overlap another ball |
| Packing.Relax | src/ball.rs:124-174 | Phase A runs its body once, leaves every position unchanged, and ends holding impulses for the touching balls |
| Packing.PackBalls | src/ball.rs:108-204 | positions are kept, the survivors are the unmarked balls, no two survivors overlap, isolated balls survive, and some ball survives |
| Packing.OverlappingPairClearsSecond | src/ball.rs:183-197 | of two overlapping balls the second is deleted |
| Packing.ChainClearsMiddle | src/ball.rs:179-202 | in a chain 0-1-2 with 0 and 2 apart only ball 1 is deleted |
| Setup.CreateBalls | src/ball.rs:59-84 | `num_balls` balls at the origin, each with radius, mass and both velocity components drawn from their half-open ranges |
| Setup.DefaultBallsNoMasslessPair | src/lib.rs:14-23 | balls whose masses come from the default range 4..5, wherever they are and however they move, satisfy the collider's no-massless-pair precondition |
| Setup.SpaceBalls | src/ball.rs:99-105 | each ball is placed with x in [min.x + r, max.x - r), y in [min.y + r, max.y - r), z = 0, and nothing else changes |
| Setup.PlacedClearOfWalls | src/ball.rs:99-104 | a freshly placed ball crosses no wall line, so the collider records no wall contact for it |

## Left out

- Bevy ECS plumbing: queries, `Commands`/`ParallelCommands` and `despawn_recursive`. Entities are indices into a sequence. A deletion is an entry in the mark list, and the survivors are returned as a set.
- Rendering, meshes, materials, the camera bundle, `setup` and `println!`.
- The viewport-to-world conversion and its `unwrap`/`unwrap_or_default`: the bounds are a parameter.
- The transition to the simulate state at the end of `pack_balls`: there is no state machine here.
- Concurrency: `par_iter`, `Mutex`, `TaskPool`, `par_splat_map` and atomics are flattened to sequential loops.
- Resolution order: `par_splat_map` hands chunks of the contact list to several tasks, and they take the store lock in whatever order they run. The model resolves the whole list in order.
- Floating point: f32 rounding, NaN and infinities are not modelled; all arithmetic is exact on reals.
- Integer width: the `(size1 + size2).pow(2)` test (particle_sim.rs:79, ball.rs:149, ball.rs:186) is computed in u32. For a radius sum of 65536 or more it overflows: a build with overflow checks (the default debug profile) panics, and a release build wraps. The model computes the exact square; for the default parameters the sum stays below 40.
- Setup.CreateBalls: requires non-empty size, mass and velocity ranges when at least one ball is created. `gen_range` panics on an empty range (ball.rs:60-64); the model does not represent that panic.
- Setup.SpaceBalls: requires that every ball fits the viewport in both directions. On a viewport narrower than a ball's diameter the placement range is empty and `gen_range` panics (ball.rs:101-102); the model does not represent that panic.
- Detection.DetectSorted: holds for the row-major order in which the model flattens the two nested `par_iter` loops (particle_sim.rs:70-122). Pushes from different rows can interleave in the source, and then subjects need not be sorted.
- Collider.ContactsSubjectsDistinct: depends on that same sequential order. With interleaved pushes, `dedup_by` can keep two contacts with one subject (for example ball 0 against balls 1 and 2 with another ball's wall entry between them), and the pair is then resolved twice.
- Packing.JustifiedDistinct: holds for the sequential scan. In the source the `contains` checks (ball.rs:188-189) and the `push` (ball.rs:197) take the lock separately, so two tasks can both pass the checks and one entity can be pushed twice.
- Packing.SomeSurvivor: holds for the sequential scan. Under the same race the pairs (a, b) and (b, a) can both pass the checks before either push, and then both balls of an overlapping pair are deleted; `Packing.PackBalls`'s clause that some ball survives inherits this.
- Collider.Collide: requires that no two overlapping balls are both massless. The source divides 0 by 0 there and writes NaN velocities. With the default parameters every mass is 4, so the precondition always holds (`Setup.DefaultBallsNoMasslessPair`).
- Square roots: the Euclidean `length` used by `normalize_or_zero` and the de-penetration step is a parameter. The only property assumed of it is that it is a function.
- Phase A impulse: the formula and its random jitter are the parameter `kick`. Nothing depends on its value, because the impulses are never applied.
- Phase A timer: `Timer`/`Time` become a real-valued elapsed time and the parameter `rawDelta`. The timer cannot end the loop before its single round, since a fresh 0.1 s timer is not finished.
- The bound of n + 1 passes for Phase B is not stated on its own, because `Packing.ClearOverlaps` proves the stronger bound of two passes.
- The `num_cleared` counter of Phase B: it is incremented but never read.
- `src/lib.rs` beyond the parameter struct and its defaults: `simulate` only starts the app.

=== FILE: balls.dfy ===
/** The ball entities and the contact records of the simulation.

    An entity is identified by its position in the query's iteration order. Both
    systems modelled here (the collider and the packer) run over a fixed set of
    entities: nothing is spawned during them, and the packer's despawns are
    deferred until it has finished, so positions are stable identities. */
module Balls {
  import opened Geometry

  type EntityId = nat

  /** One ball: its Transform translation, its Velocity, its Size (the radius)
      and its Mass, the components particle_sim.rs and ball.rs read and write. */
  datatype Ball = Ball(translation: Vec3, velocity: Vec2, size: nat, mass: nat)

  /** The viewport's world-space corners, (min, max). */
  datatype Bounds = Bounds(min: Vec2, max: Vec2)

  datatype Wall = North | East | West | South

  /** What a contact is against: one of the four walls or another ball. */
  datatype CollisionType = Wall(wall: Wall) | Entity(other: EntityId)

  /** One entry of the collider's contact list: (entity1, CollisionType). */
  datatype Contact = Contact(subject: EntityId, kind: CollisionType)

  /** The overlap test shared by the collider and the packer: the squared
      distance between the translations is below the squared sum of the radii. */
  predicate Overlaps(a: Ball, b: Ball) {
    DistSq3(a.translation, b.translation) < Sq((a.size + b.size) as real)
  }

  lemma OverlapsSymmetric(a: Ball, b: Ball)
    ensures Overlaps(a, b) <==> Overlaps(b, a)
  {
    DistSq3Symmetric(a.translation, b.translation);
    assert a.size + b.size == b.size + a.size;
  }

  /** Ball `e` overlaps no other ball of the query. */
  predicate Isolated(balls: seq<Ball>, e: EntityId)
    requires e < |balls|
  {
    forall k :: 0 <= k < |balls| && k != e ==> !Overlaps(balls[e], balls[k])
  }
}

=== FILE: collider.dfy ===
/** One tick of the collider system (particle_sim.rs:52-266): detect, dedup,
    respond in list order, then integrate every ball and clamp it into the
    viewport shrunk by its radius less a tenth of a unit. */
module Collider {
  import opened Wrappers
  import opened Geometry
  import opened Balls
  import opened Detection
  import opened Dedup
  import opened Response

  /** The integration clamp keeps a ball's centre `size - Margin` from a wall,
      so a ball may end a tick overlapping the wall by this much. */
  const Margin: real := 0.1

  /** `(translation + velocity.extend(1.)).clamp(lo, hi)` with
      `lo = (min + splat(size - 0.1)).extend(1.)` and
      `hi = (max - splat(size - 0.1)).extend(1.)`. */
  function Integrate(b: Ball, bounds: Bounds): (r: Ball)
    ensures r.velocity == b.velocity && r.size == b.size && r.mass == b.mass
    ensures r.translation.z == 1.0
    ensures var inset := b.size as real - Margin;
      && (bounds.min.x + inset <= bounds.max.x - inset ==>
            bounds.min.x + inset <= r.translation.x <= bounds.max.x - inset)
      && (bounds.min.y + inset <= bounds.max.y - inset ==>
            bounds.min.y + inset <= r.translation.y <= bounds.max.y - inset)
    ensures var inset := b.size as real - Margin;
      var x, y := b.translation.x + b.velocity.x, b.translation.y + b.velocity.y;
      && (bounds.min.x + inset <= x <= bounds.max.x - inset ==> r.translation.x == x)
      && (bounds.min.y + inset <= y <= bounds.max.y - inset ==> r.translation.y == y)
  {
    var inset := b.size as real - Margin;
    var moved := Add3(b.translation, Extend(b.velocity, 1.0));
    var lo := Extend(Add2(bounds.min, Vec2(inset, inset)), 1.0);
    var hi := Extend(Sub2(bounds.max, Vec2(inset, inset)), 1.0);
    b.(translation := Vec3(Clamp(moved.x, lo.x, hi.x), Clamp(moved.y, lo.y, hi.y), Clamp(moved.z, lo.z, hi.z)))
  }

  /** Integration of every ball, in any order: each ball keeps its velocity,
      size and mass, ends at z = 1 inside the box shrunk by its radius less the
      margin (when that box is not empty), and moves by exactly its velocity
      when the step stays inside. */
  function IntegrateAll(balls: seq<Ball>, bounds: Bounds): (r: seq<Ball>)
    ensures |r| == |balls|
    ensures forall k :: 0 <= k < |balls| ==>
      r[k].velocity == balls[k].velocity && r[k].size == balls[k].size && r[k].mass == balls[k].mass
    ensures forall k :: 0 <= k < |balls| ==> r[k].translation.z == 1.0
    ensures forall k :: 0 <= k < |balls| ==>
      var inset := balls[k].size as real - Margin;
      && (bounds.min.x + inset <= bounds.max.x - inset ==>
            bounds.min.x + inset <= r[k].translation.x <= bounds.max.x - inset)
      && (bounds.min.y + inset <= bounds.max.y - inset ==>
            bounds.min.y + inset <= r[k].translation.y <= bounds.max.y - inset)
    ensures forall k :: 0 <= k < |balls| ==>
      var b, inset := balls[k], balls[k].size as real - Margin;
      var x, y := b.translation.x + b.velocity.x, b.translation.y + b.velocity.y;
      && (bounds.min.x + inset <= x <= bounds.max.x - inset ==> r[k].translation.x == x)
      && (bounds.min.y + inset <= y <= bounds.max.y - inset ==> r[k].translation.y == y)
  {
    seq(|balls|, k requires 0 <= k < |balls| => Integrate(balls[k], bounds))
  }

  /** No two overlapping balls are both massless: the one case in which the
      mass scalar of a ball contact divides zero by zero. */
  predicate NoMasslessPair(balls: seq<Ball>) {
    forall i, j :: 0 <= i < |balls| && 0 <= j < |balls| && i != j && Overlaps(balls[i], balls[j]) ==>
      balls[i].mass + balls[j].mass > 0
  }

  /** The contact list the collider acts on. */
  function Contacts(balls: seq<Ball>, bounds: Bounds): seq<Contact> {
    DedupBy(Detect(balls, bounds))
  }

  /** Every raw entry names a ball of the query. */
  lemma DetectSubjectsInRange(balls: seq<Ball>, bounds: Bounds, c: Contact)
    requires c in Detect(balls, bounds)
    ensures c.subject < |balls|
  {
    InDetect(balls, bounds, c);
  }

  /** A retained contact names a ball of the query, and a retained ball
      contact joins two distinct balls that overlap. */
  lemma RetainedContact(balls: seq<Ball>, bounds: Bounds, c: Contact)
    requires c in Contacts(balls, bounds)
    ensures c.subject < |balls|
    ensures c.kind.Entity? ==>
      && c.kind.other < |balls| && c.subject != c.kind.other
      && Overlaps(balls[c.subject], balls[c.kind.other])
  {
    DedupSpec(Detect(balls, bounds));
    assert c in Detect(balls, bounds);
    DetectSubjectsInRange(balls, bounds, c);
    if c.kind.Entity? {
      DetectEntityIff(balls, bounds, c.subject, c.kind.other);
    }
  }

  /** Every retained ball contact joins two distinct balls of the query that
      overlap. */
  lemma ContactsOverlap(balls: seq<Ball>, bounds: Bounds)
    ensures forall c :: c in Contacts(balls, bounds) && c.kind.Entity? ==>
      && c.subject < |balls| && c.kind.other < |balls| && c.subject != c.kind.other
      && Overlaps(balls[c.subject], balls[c.kind.other])
  {
    forall c | c in Contacts(balls, bounds) && c.kind.Entity?
      ensures c.subject < |balls| && c.kind.other < |balls| && c.subject != c.kind.other
      ensures Overlaps(balls[c.subject], balls[c.kind.other])
    {
      RetainedContact(balls, bounds, c);
    }
  }

  /** Every retained contact can be resolved: it names balls of the query and
      a ball contact joins two overlapping balls, so their radii do not both
      vanish and, under NoMasslessPair, neither do their masses. */
  lemma ContactsResolvable(balls: seq<Ball>, bounds: Bounds)
    requires NoMasslessPair(balls)
    ensures forall c :: c in Contacts(balls, bounds) ==> Resolvable(balls, c)
  {
    forall c | c in Contacts(balls, bounds)
      ensures Resolvable(balls, c)
    {
      RetainedContact(balls, bounds, c);
      if c.kind.Entity? {
        var o := c.kind.other;
        var sum := (balls[c.subject].size + balls[o].size) as real;
        assert Sq(sum) > 0.0;
        assert sum != 0.0;
      }
    }
  }

  /** One tick of the collider. */
  function Collide(balls: seq<Ball>, bounds: Bounds, length: Vec2 -> real): (r: seq<Ball>)
    requires NoMasslessPair(balls)
    ensures SameBodies(balls, r)
    ensures forall k :: 0 <= k < |r| ==> r[k].translation.z == 1.0
  {
    ContactsResolvable(balls, bounds);
    IntegrateAll(ResolveAll(balls, Contacts(balls, bounds), length), bounds)
  }

  /** Every ball ends the tick inside the viewport shrunk by its radius less
      the margin, whenever that shrunk box is not empty. */
  lemma CollideInBounds(balls: seq<Ball>, bounds: Bounds, length: Vec2 -> real, k: nat)
    requires NoMasslessPair(balls)
    requires k < |balls|
    ensures var r, inset := Collide(balls, bounds, length), balls[k].size as real - Margin;
      && (bounds.min.x + inset <= bounds.max.x - inset ==>
            bounds.min.x + inset <= r[k].translation.x <= bounds.max.x - inset)
      && (bounds.min.y + inset <= bounds.max.y - inset ==>
            bounds.min.y + inset <= r[k].translation.y <= bounds.max.y - inset)
  {
    ContactsResolvable(balls, bounds);
    var resolved := ResolveAll(balls, Contacts(balls, bounds), length);
    assert resolved[k].size == balls[k].size;
    assert Collide(balls, bounds, length)[k] == Integrate(resolved[k], bounds);
  }

  /** On the raw list in row-major scan order, as `Detect` builds it, the
      retained contacts have strictly increasing subjects: each ball is the
      subject of at most one response per tick. */
  lemma ContactsSubjectsDistinct(balls: seq<Ball>, bounds: Bounds)
    ensures StrictSubjects(Contacts(balls, bounds))
  {
    DetectSorted(balls, bounds);
    DedupSortedStrict(Detect(balls, bounds));
  }

  /** A contact involving a ball that touches neither another ball nor a wall
      is never recorded. */
  lemma FreeBallUninvolved(balls: seq<Ball>, bounds: Bounds, i: EntityId, c: Contact)
    requires i < |balls| && Isolated(balls, i) && WallContact(balls[i], bounds).None?
    requires c in Detect(balls, bounds)
    ensures !Involves(c, i)
  {
    DetectSubjectsInRange(balls, bounds, c);
    match c.kind
    case Wall(w) =>
      DetectWallIff(balls, bounds, c.subject, w);
    case Entity(o) =>
      DetectEntityIff(balls, bounds, c.subject, o);
      OverlapsSymmetric(balls[c.subject], balls[i]);
  }

  /** A ball that overlaps no other ball and pokes past no wall simply moves
      by its velocity, clamped: the tick's responses leave it alone. */
  lemma CollideFreeBall(balls: seq<Ball>, bounds: Bounds, length: Vec2 -> real, i: EntityId)
    requires NoMasslessPair(balls)
    requires i < |balls| && Isolated(balls, i) && WallContact(balls[i], bounds).None?
    ensures Collide(balls, bounds, length)[i] == Integrate(balls[i], bounds)
  {
    var cs := Contacts(balls, bounds);
    DedupSpec(Detect(balls, bounds));
    forall c | c in cs
      ensures !Involves(c, i)
    {
      FreeBallUninvolved(balls, bounds, i, c);
    }
    ContactsResolvable(balls, bounds);
  }

  /** A single ball of radius 10 at x = 95 moving right at 5 in a 200-wide box
      is past the east wall's line (x > 100 - 10): it is turned back and ends
      the tick at x = 90 with velocity (-5, 0). */
  lemma EastWallBounce(length: Vec2 -> real)
    ensures var b := Ball(Vec3(95.0, 0.0, 0.0), Vec2(5.0, 0.0), 10, 1);
      var bounds := Bounds(Vec2(-100.0, -100.0), Vec2(100.0, 100.0));
      Collide([b], bounds, length) == [Ball(Vec3(90.0, 0.0, 1.0), Vec2(-5.0, 0.0), 10, 1)]
  {
    var b := Ball(Vec3(95.0, 0.0, 0.0), Vec2(5.0, 0.0), 10, 1);
    var bounds := Bounds(Vec2(-100.0, -100.0), Vec2(100.0, 100.0));
    assert WallContact(b, bounds) == Some(East);
    assert PairContact([b], bounds, 0, 0) == [Contact(0, Wall(East))];
    assert RowFrom([b], bounds, 0, 0) == [Contact(0, Wall(East))];
    assert DetectFrom([b], bounds, 1) == [];
    assert Detect([b], bounds) == [Contact(0, Wall(East))];
    assert Contacts([b], bounds) == [Contact(0, Wall(East))];
  }

  lemma DetectOfTwo(balls: seq<Ball>, bounds: Bounds)
    requires |balls| == 2
    ensures Detect(balls, bounds) == RowFrom(balls, bounds, 0, 0) + RowFrom(balls, bounds, 1, 0)
  {
    assert DetectFrom(balls, bounds, 1) == RowFrom(balls, bounds, 1, 0) + DetectFrom(balls, bounds, 2);
  }

  /** The row of a ball of a pair that overlaps neither partner: one wall
      entry per partner, itself included. */
  lemma WallRowOfTwo(balls: seq<Ball>, bounds: Bounds, i: EntityId, w: Wall)
    requires |balls| == 2 && i < 2
    requires !Overlaps(balls[0], balls[1]) && WallContact(balls[i], bounds) == Some(w)
    ensures RowFrom(balls, bounds, i, 0) == [Contact(i, Wall(w)), Contact(i, Wall(w))]
  {
    OverlapsSymmetric(balls[0], balls[1]);
    var e := Contact(i, Wall(w));
    assert PairContact(balls, bounds, i, 0) == [e];
    assert PairContact(balls, bounds, i, 1) == [e];
    assert RowFrom(balls, bounds, i, 1) == [e] + RowFrom(balls, bounds, i, 2);
  }

  /** Two separate balls both past the line of the same wall: ball 1's wall
      entry equals ball 0's retained one in its second component, so dedup
      drops it. Ball 0 is turned away from the wall; ball 1 keeps its
      velocity and is stopped only by the integration clamp. */
  lemma SecondBallWallIgnored(b0: Ball, b1: Ball, bounds: Bounds, w: Wall, length: Vec2 -> real)
    requires !Overlaps(b0, b1)
    requires WallContact(b0, bounds) == Some(w) && WallContact(b1, bounds) == Some(w)
    ensures NoMasslessPair([b0, b1])
    ensures var r := Collide([b0, b1], bounds, length);
      && r[0] == Integrate(b0.(velocity := Reflect(b0.velocity, w)), bounds)
      && r[1] == Integrate(b1, bounds)
  {
    var balls := [b0, b1];
    OverlapsSymmetric(b0, b1);
    var e0, e1 := Contact(0, Wall(w)), Contact(1, Wall(w));
    WallRowOfTwo(balls, bounds, 0, w);
    WallRowOfTwo(balls, bounds, 1, w);
    DetectOfTwo(balls, bounds);
    assert Detect(balls, bounds) == [e0, e0, e1, e1];
    assert SameBucket(e0, e0) && SameBucket(e1, e0);
    assert DedupAfter(e0, [e1]) == [];
    assert DedupAfter(e0, [e1, e1]) == [];
    assert DedupAfter(e0, [e0, e1, e1]) == [];
    assert Contacts(balls, bounds) == [e0];
    ContactsResolvable(balls, bounds);
    var resolved := ResolveAll(balls, [e0], length);
    assert resolved == [b0.(velocity := Reflect(b0.velocity, w)), b1];
  }
}

=== FILE: dedup.dfy ===
/** Stage two of the collider: `Vec::dedup_by` over the raw contact list with
    the three-way predicate of particle_sim.rs:126-138.

    `dedup_by` keeps the first element and then walks the rest; each element is
    compared with the LAST RETAINED element (not with its raw predecessor) and is
    dropped when the predicate holds. */
module Dedup {
  import opened Balls
  import opened Detection

  /** The entity a contact points at: the other ball, or the subject itself
      for a wall contact (the `_ => b.0` arms of the predicate). */
  function Target(c: Contact): EntityId {
    match c.kind
    case Entity(e) => e
    case Wall(_) => c.subject
  }

  /** The dedup predicate, `later` being the element under test and `kept` the
      last retained one: same subject, or mirrored pair, or identical
      CollisionType (whatever the subjects). */
  predicate SameBucket(later: Contact, kept: Contact) {
    || later.subject == kept.subject
    || (later.subject == Target(kept) && Target(later) == kept.subject)
    || later.kind == kept.kind
  }

  /** The retained part of `rest` when `last` is the last element retained so far. */
  function DedupAfter(last: Contact, rest: seq<Contact>): seq<Contact>
    decreases |rest|
  {
    if |rest| == 0 then []
    else if SameBucket(rest[0], last) then DedupAfter(last, rest[1..])
    else [rest[0]] + DedupAfter(rest[0], rest[1..])
  }

  /** The element retained last after walking `rest` from `last`. */
  function LastKept(last: Contact, rest: seq<Contact>): Contact
    decreases |rest|
  {
    if |rest| == 0 then last
    else if SameBucket(rest[0], last) then LastKept(last, rest[1..])
    else LastKept(rest[0], rest[1..])
  }

  /** `Vec::dedup_by` with the collider's predicate. */
  function DedupBy(s: seq<Contact>): seq<Contact> {
    if |s| == 0 then [] else [s[0]] + DedupAfter(s[0], s[1..])
  }

  /** `a` is obtained from `b` by deleting elements. */
  predicate IsSubseq<T(==)>(a: seq<T>, b: seq<T>)
    decreases |b|
  {
    |a| == 0 || (|b| > 0 && ((a[0] == b[0] && IsSubseq(a[1..], b[1..])) || IsSubseq(a, b[1..])))
  }

  /** No element satisfies the predicate against its predecessor. */
  predicate Chained(s: seq<Contact>) {
    forall i :: 0 <= i < |s| - 1 ==> !SameBucket(s[i + 1], s[i])
  }

  /** No two elements share a subject, and subjects increase along the list. */
  predicate StrictSubjects(s: seq<Contact>) {
    forall a, b :: 0 <= a < b < |s| ==> s[a].subject < s[b].subject
  }

  /** The in-place algorithm of `Vec::dedup_by`: a read cursor walks the
      vector and a write cursor marks the end of the retained prefix. */
  method DedupInPlace(v: seq<Contact>) returns (r: seq<Contact>)
    ensures r == DedupBy(v)
  {
    if |v| <= 1 {
      return v;
    }
    r := [v[0]];
    var read := 1;
    while read < |v|
      invariant 1 <= read <= |v|
      invariant 0 < |r| <= read
      invariant r + DedupAfter(r[|r| - 1], v[read..]) == DedupBy(v)
    {
      var last := r[|r| - 1];
      DedupAfterStep(last, v, read);
      if !SameBucket(v[read], last) {
        assert r + DedupAfter(last, v[read..]) == (r + [v[read]]) + DedupAfter(v[read], v[read + 1..]);
        r := r + [v[read]];
      }
      read := read + 1;
    }
  }

  /** One step of the read cursor. */
  lemma DedupAfterStep(last: Contact, v: seq<Contact>, read: nat)
    requires read < |v|
    ensures SameBucket(v[read], last) ==> DedupAfter(last, v[read..]) == DedupAfter(last, v[read + 1..])
    ensures !SameBucket(v[read], last) ==> DedupAfter(last, v[read..]) == [v[read]] + DedupAfter(v[read], v[read + 1..])
  {
    assert v[read..][0] == v[read] && v[read..][1..] == v[read + 1..];
  }

  lemma {:induction false} SubseqMembers<T>(a: seq<T>, b: seq<T>)
    requires IsSubseq(a, b)
    ensures forall x :: x in a ==> x in b
    decreases |b|
  {
    if |a| > 0 {
      if a[0] == b[0] && IsSubseq(a[1..], b[1..]) {
        SubseqMembers(a[1..], b[1..]);
        forall x | x in a
          ensures x in b
        {
          if x != a[0] {
            assert x in a[1..];
            assert x in b[1..];
          }
        }
      } else {
        SubseqMembers(a, b[1..]);
        forall x | x in a
          ensures x in b
        {
          assert x in b[1..];
        }
      }
    }
  }

  lemma {:induction false} DedupAfterSubseq(last: Contact, rest: seq<Contact>)
    ensures IsSubseq(DedupAfter(last, rest), rest)
    decreases |rest|
  {
    if |rest| > 0 {
      if SameBucket(rest[0], last) {
        DedupAfterSubseq(last, rest[1..]);
      } else {
        DedupAfterSubseq(rest[0], rest[1..]);
        var r := DedupAfter(last, rest);
        assert r[0] == rest[0] && r[1..] == DedupAfter(rest[0], rest[1..]);
      }
    }
  }

  lemma {:induction false} DedupAfterChained(last: Contact, rest: seq<Contact>)
    ensures Chained([last] + DedupAfter(last, rest))
    decreases |rest|
  {
    if |rest| > 0 {
      if SameBucket(rest[0], last) {
        DedupAfterChained(last, rest[1..]);
      } else {
        DedupAfterChained(rest[0], rest[1..]);
        var tail := [rest[0]] + DedupAfter(rest[0], rest[1..]);
        assert [last] + DedupAfter(last, rest) == [last] + tail;
        forall i | 0 <= i < |[last] + tail| - 1
          ensures !SameBucket(([last] + tail)[i + 1], ([last] + tail)[i])
        {
          if i > 0 {
            assert ([last] + tail)[i + 1] == tail[i] && ([last] + tail)[i] == tail[i - 1];
          }
        }
      }
    }
  }

  lemma {:induction false} DedupAfterIdentity(last: Contact, rest: seq<Contact>)
    requires Chained([last] + rest)
    ensures DedupAfter(last, rest) == rest
    decreases |rest|
  {
    if |rest| > 0 {
      var t := [last] + rest;
      assert t[0] == last && t[1] == rest[0];
      assert !SameBucket(rest[0], last);
      var tail := [rest[0]] + rest[1..];
      assert tail == rest;
      forall i | 0 <= i < |tail| - 1
        ensures !SameBucket(tail[i + 1], tail[i])
      {
        assert tail[i + 1] == t[i + 2] && tail[i] == t[i + 1];
      }
      DedupAfterIdentity(rest[0], rest[1..]);
    }
  }

  /** The output of dedup is a subsequence of its input that keeps the first
      element, and no retained element satisfies the predicate against the
      element retained just before it. */
  lemma DedupSpec(s: seq<Contact>)
    ensures IsSubseq(DedupBy(s), s)
    ensures |s| > 0 ==> |DedupBy(s)| > 0 && DedupBy(s)[0] == s[0]
    ensures Chained(DedupBy(s))
    ensures forall c :: c in DedupBy(s) ==> c in s
  {
    if |s| > 0 {
      DedupAfterSubseq(s[0], s[1..]);
      DedupAfterChained(s[0], s[1..]);
      var r := DedupBy(s);
      assert r[0] == s[0] && r[1..] == DedupAfter(s[0], s[1..]);
      assert s == [s[0]] + s[1..];
    }
    SubseqMembers(DedupBy(s), s);
  }

  /** A list in which no element satisfies the predicate against its
      predecessor is left unchanged. */
  lemma DedupIdentityWhenChained(s: seq<Contact>)
    requires Chained(s)
    ensures DedupBy(s) == s
  {
    if |s| > 0 {
      assert [s[0]] + s[1..] == s;
      DedupAfterIdentity(s[0], s[1..]);
    }
  }

  /** A second dedup changes nothing. */
  lemma DedupIdempotent(s: seq<Contact>)
    ensures DedupBy(DedupBy(s)) == DedupBy(s)
  {
    DedupSpec(s);
    DedupIdentityWhenChained(DedupBy(s));
  }

  /** Walking a concatenation is walking the first part and then the second
      from the element the first part retained last. */
  lemma {:induction false} DedupAfterSplit(last: Contact, a: seq<Contact>, b: seq<Contact>)
    ensures DedupAfter(last, a + b) == DedupAfter(last, a) + DedupAfter(LastKept(last, a), b)
    decreases |a|
  {
    if |a| > 0 {
      assert (a + b)[0] == a[0] && (a + b)[1..] == a[1..] + b;
      if SameBucket(a[0], last) {
        DedupAfterSplit(last, a[1..], b);
      } else {
        DedupAfterSplit(a[0], a[1..], b);
      }
    } else {
      assert a + b == b;
    }
  }

  lemma {:induction false} SameSubjectDropped(last: Contact, run: seq<Contact>)
    requires forall c :: c in run ==> c.subject == last.subject
    ensures DedupAfter(last, run) == []
    ensures LastKept(last, run) == last
    decreases |run|
  {
    if |run| > 0 {
      assert run[0] in run;
      assert forall c :: c in run[1..] ==> c in run;
      SameSubjectDropped(last, run[1..]);
    }
  }

  /** Of a run of entries sharing one subject, at most one survives, and it
      comes from the run. */
  lemma {:induction false} DedupAfterRun(last: Contact, run: seq<Contact>, e: EntityId)
    requires forall c :: c in run ==> c.subject == e
    ensures |DedupAfter(last, run)| <= 1
    ensures forall c :: c in DedupAfter(last, run) ==> c in run
    decreases |run|
  {
    if |run| > 0 {
      assert run[0] in run;
      assert forall c :: c in run[1..] ==> c in run;
      if SameBucket(run[0], last) {
        DedupAfterRun(last, run[1..], e);
      } else {
        SameSubjectDropped(run[0], run[1..]);
      }
    }
  }

  /** Within any run of consecutive entries sharing one subject, at most one
      entry survives: the output is the output for the entries before the run,
      then at most one entry of the run, then the output for the entries after
      it, walked from the element retained last. */
  lemma DedupKeepsAtMostOneOfRun(p: seq<Contact>, run: seq<Contact>, q: seq<Contact>, e: EntityId)
    requires |run| > 0
    requires forall c :: c in run ==> c.subject == e
    ensures |p| == 0 ==> DedupBy(p + run + q) == [run[0]] + DedupAfter(run[0], q)
    ensures |p| > 0 ==>
      var last := LastKept(p[0], p[1..]);
      && DedupBy(p + run + q) == DedupBy(p) + DedupAfter(last, run) + DedupAfter(LastKept(last, run), q)
      && |DedupAfter(last, run)| <= 1
      && (forall c :: c in DedupAfter(last, run) ==> c in run)
  {
    if |p| == 0 {
      assert p + run + q == run + q;
      DedupRunFirst(run, q, e);
    } else {
      DedupRunAfterPrefix(p, run, q, e);
    }
  }

  lemma DedupRunFirst(run: seq<Contact>, q: seq<Contact>, e: EntityId)
    requires |run| > 0
    requires forall c :: c in run ==> c.subject == e
    ensures DedupBy(run + q) == [run[0]] + DedupAfter(run[0], q)
  {
    assert run[0] in run;
    assert forall c :: c in run[1..] ==> c in run;
    SameSubjectDropped(run[0], run[1..]);
    DedupPrefixSplit(run, q);
    assert DedupBy(run) == [run[0]];
  }

  /** Deduplicating `p + rest` walks `rest` on from the element retained last in `p`. */
  lemma DedupPrefixSplit(p: seq<Contact>, rest: seq<Contact>)
    requires |p| > 0
    ensures DedupBy(p + rest) == DedupBy(p) + DedupAfter(LastKept(p[0], p[1..]), rest)
  {
    var s := p + rest;
    assert s[0] == p[0];
    assert s[1..] == p[1..] + rest;
    DedupAfterSplit(p[0], p[1..], rest);
  }

  lemma DedupRunAfterPrefix(p: seq<Contact>, run: seq<Contact>, q: seq<Contact>, e: EntityId)
    requires |p| > 0 && |run| > 0
    requires forall c :: c in run ==> c.subject == e
    ensures var last := LastKept(p[0], p[1..]);
      && DedupBy(p + run + q) == DedupBy(p) + DedupAfter(last, run) + DedupAfter(LastKept(last, run), q)
      && |DedupAfter(last, run)| <= 1
      && (forall c :: c in DedupAfter(last, run) ==> c in run)
  {
    var last := LastKept(p[0], p[1..]);
    assert p + run + q == p + (run + q);
    DedupPrefixSplit(p, run + q);
    DedupAfterSplit(last, run, q);
    var head, mid, tail := DedupBy(p), DedupAfter(last, run), DedupAfter(LastKept(last, run), q);
    assert DedupBy(p + run + q) == head + (mid + tail);
    assert head + (mid + tail) == head + mid + tail;
    DedupAfterRun(last, run, e);
  }

  /** The tail of a sorted list is sorted and starts no lower than its head. */
  lemma SortedTail(s: seq<Contact>)
    requires |s| > 0 && SubjectsSorted(s)
    ensures SubjectsSorted(s[1..])
    ensures forall c :: c in s[1..] ==> s[0].subject <= c.subject
  {
    forall c | c in s[1..]
      ensures s[0].subject <= c.subject
    {
      var k :| 0 <= k < |s[1..]| && s[1..][k] == c;
      assert s[k + 1] == c;
    }
    forall a, b | 0 <= a < b < |s[1..]|
      ensures s[1..][a].subject <= s[1..][b].subject
    {
      assert s[1..][a] == s[a + 1] && s[1..][b] == s[b + 1];
    }
  }

  /** Prepending a lower subject keeps subjects strictly increasing. */
  lemma ConsStrict(last: Contact, tail: seq<Contact>)
    requires |tail| > 0 && StrictSubjects(tail) && last.subject < tail[0].subject
    ensures StrictSubjects([last] + tail)
  {
    var t := [last] + tail;
    forall a, b | 0 <= a < b < |t|
      ensures t[a].subject < t[b].subject
    {
      if a == 0 {
        if b > 1 {
          assert t[b] == tail[b - 1];
        }
      } else {
        assert t[a] == tail[a - 1] && t[b] == tail[b - 1];
      }
    }
  }

  lemma {:induction false} DedupAfterStrict(last: Contact, rest: seq<Contact>)
    requires SubjectsSorted(rest)
    requires forall c :: c in rest ==> last.subject <= c.subject
    ensures StrictSubjects([last] + DedupAfter(last, rest))
    decreases |rest|
  {
    if |rest| > 0 {
      assert rest[0] in rest;
      SortedTail(rest);
      if SameBucket(rest[0], last) {
        assert forall c :: c in rest[1..] ==> c in rest;
        DedupAfterStrict(last, rest[1..]);
      } else {
        DedupAfterStrict(rest[0], rest[1..]);
        ConsStrict(last, [rest[0]] + DedupAfter(rest[0], rest[1..]));
      }
    }
  }

  /** On a list grouped by subject, as the detection scan produces, dedup keeps
      at most one entry per subject. */
  lemma DedupSortedStrict(s: seq<Contact>)
    requires SubjectsSorted(s)
    ensures StrictSubjects(DedupBy(s))
  {
    if |s| > 0 {
      SortedTail(s);
      DedupAfterStrict(s[0], s[1..]);
    }
  }

  /** The mirror (B, Entity A) of a ball contact is dropped exactly when the
      last entry kept before it is an entry of B, the original report
      (A, Entity B), or any ball's contact with A. */
  lemma MirrorDroppedIff(kept: Contact, a: EntityId, b: EntityId)
    requires a != b
    ensures SameBucket(Contact(b, Entity(a)), kept) <==>
      kept.subject == b || kept == Contact(a, Entity(b)) || kept.kind == Entity(a)
  {
  }

  /** A wall contact (i, Wall w) is dropped exactly when the last entry kept
      before it is an entry of ball i or any ball's contact with wall w. */
  lemma WallDroppedIff(kept: Contact, i: EntityId, w: Wall)
    ensures SameBucket(Contact(i, Wall(w)), kept) <==> kept.subject == i || kept.kind == Wall(w)
  {
  }

  /** With two disjoint overlapping pairs (0, 2) and (1, 3), the last entry
      kept before each mirror is neither of its balls' entries nor a contact
      with its target, so both mirrors survive. */
  lemma DedupKeepsSeparatedMirrors()
    ensures var s := [Contact(0, Entity(2)), Contact(1, Entity(3)), Contact(2, Entity(0)), Contact(3, Entity(1))];
            DedupBy(s) == s
  {
    var s := [Contact(0, Entity(2)), Contact(1, Entity(3)), Contact(2, Entity(0)), Contact(3, Entity(1))];
    assert Chained(s);
    DedupIdentityWhenChained(s);
  }

  /** Ball 0 overlapping balls 1 and 2: the entry (0, Entity 2) in between is
      itself dropped, so the mirror (1, Entity 0) is still compared with
      (0, Entity 1) and dropped; (2, Entity 0) survives. */
  lemma DedupDropsMirrorPastDroppedEntry()
    ensures DedupBy([Contact(0, Entity(1)), Contact(0, Entity(2)), Contact(1, Entity(0)), Contact(2, Entity(0))])
            == [Contact(0, Entity(1)), Contact(2, Entity(0))]
  {
  }

  /** The `a.1 == b.1` arm compares CollisionTypes regardless of subject: the
      wall contact of a second ball against the same wall, right after the
      first ball's, is dropped. */
  lemma DedupDropsSecondBallsWall()
    ensures DedupBy([Contact(0, Wall(East)), Contact(1, Wall(East))]) == [Contact(0, Wall(East))]
  {
  }

  /** A contact of a third ball with another wall, kept in between, lets the
      second ball's contact with the same wall survive. */
  lemma DedupKeepsSeparatedWalls()
    ensures var s := [Contact(0, Wall(East)), Contact(1, Wall(West)), Contact(2, Wall(East))];
            DedupBy(s) == s
  {
    var s := [Contact(0, Wall(East)), Contact(1, Wall(West)), Contact(2, Wall(East))];
    assert Chained(s);
    DedupIdentityWhenChained(s);
  }

  /** Balls 1 and 2 overlap and ball 2 is past the East line: the mirror
      (2, Entity 1) is dropped although ball 2's wall entry is kept between it
      and (1, Entity 2), because that kept entry is an entry of ball 2. */
  lemma DedupDropsMirrorPastOwnWall()
    ensures DedupBy([Contact(1, Entity(2)), Contact(2, Wall(East)), Contact(2, Entity(1)), Contact(2, Wall(East))])
            == [Contact(1, Entity(2)), Contact(2, Wall(East))]
  {
  }

  /** Balls 0 and 2 overlap and both are past the East line: ball 2's East
      entry is dropped although (2, Entity 0) is kept between the two balls'
      East entries, because that kept entry is an entry of ball 2. */
  lemma DedupDropsWallPastOwnContact()
    ensures DedupBy([Contact(0, Wall(East)), Contact(0, Wall(East)), Contact(0, Entity(2)),
                     Contact(2, Entity(0)), Contact(2, Wall(East)), Contact(2, Wall(East))])
            == [Contact(0, Wall(East)), Contact(2, Entity(0))]
  {
  }
}

=== FILE: detection.dfy ===
/** Stage one of the collider: the all-pairs contact scan.

    For every ordered pair (entity1, entity2) of the query, in iteration order,
    the scan pushes at most one entry for entity1: a ball contact with entity2
    when the two are distinct and overlap, and otherwise the first wall that
    entity1 pokes past, checked East, West, South, North. The parallel
    iteration is flattened to the sequential nested loop. */
module Detection {
  import opened Wrappers
  import opened Geometry
  import opened Balls

  /** The ball pokes past the line of wall `w`, judged by its own radius. */
  predicate Crosses(b: Ball, bounds: Bounds, w: Wall) {
    match w
    case East => b.translation.x > bounds.max.x - b.size as real
    case West => b.translation.x < bounds.min.x + b.size as real
    case South => b.translation.y < bounds.min.y + b.size as real
    case North => b.translation.y > bounds.max.y - b.size as real
  }

  /** Position of each wall in the order the scan checks them. */
  function Priority(w: Wall): nat {
    match w
    case East => 0
    case West => 1
    case South => 2
    case North => 3
  }

  /** The wall entry the scan records for a ball, if any: the first wall, in
      check order, whose line the ball pokes past. */
  function WallContact(b: Ball, bounds: Bounds): (r: Option<Wall>)
    ensures r.None? <==> forall w :: !Crosses(b, bounds, w)
    ensures r.Some? ==> Crosses(b, bounds, r.value)
    ensures r.Some? ==> forall w :: Crosses(b, bounds, w) ==> Priority(r.value) <= Priority(w)
    ensures bounds.min.x + b.size as real <= b.translation.x <= bounds.max.x - b.size as real
            && bounds.min.y + b.size as real <= b.translation.y <= bounds.max.y - b.size as real
            ==> r.None?
  {
    var x, y, s := b.translation.x, b.translation.y, b.size as real;
    if x > bounds.max.x - s then assert Crosses(b, bounds, East); Some(East)
    else if x < bounds.min.x + s then assert Crosses(b, bounds, West); Some(West)
    else if y < bounds.min.y + s then assert Crosses(b, bounds, South); Some(South)
    else if y > bounds.max.y - s then assert Crosses(b, bounds, North); Some(North)
    else None
  }

  /** The entry (if any) pushed for the ordered pair (i, j). */
  function PairContact(balls: seq<Ball>, bounds: Bounds, i: EntityId, j: EntityId): (r: seq<Contact>)
    requires i < |balls| && j < |balls|
    ensures |r| <= 1
    ensures forall c :: c in r ==> c.subject == i
    ensures (i != j && Overlaps(balls[i], balls[j])) <==> r == [Contact(i, Entity(j))]
  {
    if Overlaps(balls[i], balls[j]) && i != j then
      [Contact(i, Entity(j))]
    else
      match WallContact(balls[i], bounds)
      case Some(w) => [Contact(i, Wall(w))]
      case None => []
  }

  /** Entries pushed for entity `i` against entities j, j+1, ..., in order. */
  function RowFrom(balls: seq<Ball>, bounds: Bounds, i: EntityId, j: nat): seq<Contact>
    requires i < |balls| && j <= |balls|
    decreases |balls| - j
  {
    if j == |balls| then [] else PairContact(balls, bounds, i, j) + RowFrom(balls, bounds, i, j + 1)
  }

  /** Entries pushed for entities i, i+1, ..., each row in order. */
  function DetectFrom(balls: seq<Ball>, bounds: Bounds, i: nat): seq<Contact>
    requires i <= |balls|
    decreases |balls| - i
  {
    if i == |balls| then [] else RowFrom(balls, bounds, i, 0) + DetectFrom(balls, bounds, i + 1)
  }

  /** The raw contact list of one tick (particle_sim.rs:69-122). */
  function Detect(balls: seq<Ball>, bounds: Bounds): seq<Contact> {
    DetectFrom(balls, bounds, 0)
  }

  /** Subjects never decrease along the list. */
  predicate SubjectsSorted(s: seq<Contact>) {
    forall a, b :: 0 <= a < b < |s| ==> s[a].subject <= s[b].subject
  }

  lemma {:induction false} InRowFrom(balls: seq<Ball>, bounds: Bounds, i: EntityId, j: nat, c: Contact)
    requires i < |balls| && j <= |balls|
    ensures c in RowFrom(balls, bounds, i, j) <==>
            exists k :: j <= k < |balls| && c in PairContact(balls, bounds, i, k)
    decreases |balls| - j
  {
    if j < |balls| {
      InRowFrom(balls, bounds, i, j + 1, c);
      if c in RowFrom(balls, bounds, i, j) && c !in PairContact(balls, bounds, i, j) {
        assert c in RowFrom(balls, bounds, i, j + 1);
      }
    }
  }

  lemma {:induction false} InDetectFromIntro(balls: seq<Ball>, bounds: Bounds, i: nat, a: EntityId, c: Contact)
    requires i <= a < |balls| && c in RowFrom(balls, bounds, a, 0)
    ensures c in DetectFrom(balls, bounds, i)
    decreases |balls| - i
  {
    if a > i {
      InDetectFromIntro(balls, bounds, i + 1, a, c);
    }
  }

  lemma {:induction false} InDetectFromElim(balls: seq<Ball>, bounds: Bounds, i: nat, c: Contact) returns (a: EntityId)
    requires i <= |balls| && c in DetectFrom(balls, bounds, i)
    ensures i <= a < |balls| && c in RowFrom(balls, bounds, a, 0)
    decreases |balls| - i
  {
    if c in RowFrom(balls, bounds, i, 0) {
      a := i;
    } else {
      a := InDetectFromElim(balls, bounds, i + 1, c);
    }
  }

  lemma InDetectFrom(balls: seq<Ball>, bounds: Bounds, i: nat, c: Contact)
    requires i <= |balls|
    ensures c in DetectFrom(balls, bounds, i) <==>
            exists a :: i <= a < |balls| && c in RowFrom(balls, bounds, a, 0)
  {
    if c in DetectFrom(balls, bounds, i) {
      var a := InDetectFromElim(balls, bounds, i, c);
    }
    if exists a :: i <= a < |balls| && c in RowFrom(balls, bounds, a, 0) {
      var a :| i <= a < |balls| && c in RowFrom(balls, bounds, a, 0);
      InDetectFromIntro(balls, bounds, i, a, c);
    }
  }

  /** A contact is in the raw list exactly when some ordered pair pushed it. */
  lemma InDetect(balls: seq<Ball>, bounds: Bounds, c: Contact)
    ensures c in Detect(balls, bounds) <==>
            exists a, k :: 0 <= a < |balls| && 0 <= k < |balls| && c in PairContact(balls, bounds, a, k)
  {
    InDetectFrom(balls, bounds, 0, c);
    if c in Detect(balls, bounds) {
      var a :| 0 <= a < |balls| && c in RowFrom(balls, bounds, a, 0);
      InRowFrom(balls, bounds, a, 0, c);
    }
    if exists a, k :: 0 <= a < |balls| && 0 <= k < |balls| && c in PairContact(balls, bounds, a, k) {
      var a, k :| 0 <= a < |balls| && 0 <= k < |balls| && c in PairContact(balls, bounds, a, k);
      InRowFrom(balls, bounds, a, 0, c);
    }
  }

  /** A ball contact (a, Entity(o)) is recorded exactly when a and o are two
      distinct balls of the query that overlap; in particular no ball is ever
      recorded as colliding with itself. */
  lemma DetectEntityIff(balls: seq<Ball>, bounds: Bounds, a: EntityId, o: EntityId)
    ensures Contact(a, Entity(o)) in Detect(balls, bounds) <==>
            a < |balls| && o < |balls| && a != o && Overlaps(balls[a], balls[o])
  {
    var c := Contact(a, Entity(o));
    InDetect(balls, bounds, c);
    if a < |balls| && o < |balls| && a != o && Overlaps(balls[a], balls[o]) {
      assert c in PairContact(balls, bounds, a, o);
    }
    if c in Detect(balls, bounds) {
      var a', k :| 0 <= a' < |balls| && 0 <= k < |balls| && c in PairContact(balls, bounds, a', k);
      assert a' == a;
      assert k == o;
    }
  }

  /** A wall contact (a, Wall(w)) is recorded exactly when ball a pokes past
      wall w and past no wall checked before it: the ball's pairing with itself
      never counts as a ball contact, so its wall is always checked at least
      once, and every wall entry for a names that same wall. */
  lemma DetectWallIff(balls: seq<Ball>, bounds: Bounds, a: EntityId, w: Wall)
    ensures Contact(a, Wall(w)) in Detect(balls, bounds) <==>
            a < |balls| && WallContact(balls[a], bounds) == Some(w)
  {
    var c := Contact(a, Wall(w));
    InDetect(balls, bounds, c);
    if a < |balls| && WallContact(balls[a], bounds) == Some(w) {
      assert c in PairContact(balls, bounds, a, a);
    }
  }

  lemma {:induction false} RowFromSubjects(balls: seq<Ball>, bounds: Bounds, i: EntityId, j: nat)
    requires i < |balls| && j <= |balls|
    ensures forall c :: c in RowFrom(balls, bounds, i, j) ==> c.subject == i
    ensures |RowFrom(balls, bounds, i, j)| <= |balls| - j
    decreases |balls| - j
  {
    if j < |balls| {
      RowFromSubjects(balls, bounds, i, j + 1);
    }
  }

  lemma {:induction false} DetectFromSorted(balls: seq<Ball>, bounds: Bounds, i: nat)
    requires i <= |balls|
    ensures SubjectsSorted(DetectFrom(balls, bounds, i))
    ensures forall c :: c in DetectFrom(balls, bounds, i) ==> i <= c.subject
    decreases |balls| - i
  {
    if i < |balls| {
      DetectFromSorted(balls, bounds, i + 1);
      RowFromSubjects(balls, bounds, i, 0);
      var row, rest := RowFrom(balls, bounds, i, 0), DetectFrom(balls, bounds, i + 1);
      var s := row + rest;
      forall a, b | 0 <= a < b < |s|
        ensures s[a].subject <= s[b].subject
      {
        if b < |row| {
          assert s[a] in row && s[b] in row;
        } else if a < |row| {
          assert s[a] in row;
          assert s[b] == rest[b - |row|];
          assert s[b] in rest;
        } else {
          assert s[a] == rest[a - |row|] && s[b] == rest[b - |row|];
        }
      }
      forall c | c in s
        ensures i <= c.subject
      {
        if c !in row {
          assert c in rest;
        }
      }
    }
  }

  /** The scan emits its rows in entity order, so the raw list is grouped by
      subject: every maximal run of equal subjects is one entity's row. */
  lemma DetectSorted(balls: seq<Ball>, bounds: Bounds)
    ensures SubjectsSorted(Detect(balls, bounds))
  {
    DetectFromSorted(balls, bounds, 0);
  }

  lemma {:induction false} DetectFromLength(balls: seq<Ball>, bounds: Bounds, i: nat)
    requires i <= |balls|
    ensures |DetectFrom(balls, bounds, i)| <= (|balls| - i) * |balls|
    decreases |balls| - i
  {
    if i < |balls| {
      DetectFromLength(balls, bounds, i + 1);
      RowFromSubjects(balls, bounds, i, 0);
      assert (|balls| - i) * |balls| == (|balls| - (i + 1)) * |balls| + |balls|;
    }
  }

  /** At most one entry per ordered pair: the raw list never exceeds n * n. */
  lemma DetectLength(balls: seq<Ball>, bounds: Bounds)
    ensures |Detect(balls, bounds)| <= |balls| * |balls|
  {
    DetectFromLength(balls, bounds, 0);
  }
}

=== FILE: geometry.dfy ===
/** Real-valued plane and space vectors with the few operations the simulation
    takes from its vector library: component-wise arithmetic, dot product,
    squared distance, absolute value and glam's min/max clamp. Arithmetic is
    exact on reals; f32 rounding is not modelled. */
module Geometry {

  datatype Vec2 = Vec2(x: real, y: real)

  datatype Vec3 = Vec3(x: real, y: real, z: real)

  const Zero2: Vec2 := Vec2(0.0, 0.0)

  const Zero3: Vec3 := Vec3(0.0, 0.0, 0.0)

  function Abs(a: real): real {
    if a < 0.0 then -a else a
  }

  /** f32::max: the larger operand. */
  function Max(a: real, b: real): real {
    if a >= b then a else b
  }

  /** f32::min: the smaller operand. */
  function Min(a: real, b: real): real {
    if a <= b then a else b
  }

  function Sq(a: real): (r: real)
    ensures r >= 0.0
  {
    a * a
  }

  /** glam's clamp: raise to `lo` first, then lower to `hi`. When the interval
      is empty (`lo > hi`) the result is therefore `hi`. */
  function Clamp(v: real, lo: real, hi: real): (r: real)
    ensures r <= hi
    ensures lo <= hi ==> lo <= r
    ensures lo <= v <= hi ==> r == v
    ensures r == v || r == lo || r == hi
    ensures lo > hi ==> r == hi
  {
    Min(Max(v, lo), hi)
  }

  function Add2(a: Vec2, b: Vec2): Vec2 {
    Vec2(a.x + b.x, a.y + b.y)
  }

  function Sub2(a: Vec2, b: Vec2): Vec2 {
    Vec2(a.x - b.x, a.y - b.y)
  }

  function Scale2(k: real, a: Vec2): Vec2 {
    Vec2(k * a.x, k * a.y)
  }

  function Dot2(a: Vec2, b: Vec2): real {
    a.x * b.x + a.y * b.y
  }

  function Add3(a: Vec3, b: Vec3): Vec3 {
    Vec3(a.x + b.x, a.y + b.y, a.z + b.z)
  }

  function Sub3(a: Vec3, b: Vec3): Vec3 {
    Vec3(a.x - b.x, a.y - b.y, a.z - b.z)
  }

  /** glam's `truncate`: drop the z component. */
  function Truncate(a: Vec3): Vec2 {
    Vec2(a.x, a.y)
  }

  /** glam's `extend`: append a z component. */
  function Extend(a: Vec2, z: real): Vec3 {
    Vec3(a.x, a.y, z)
  }

  /** Squared Euclidean distance between two points in space. */
  function DistSq3(a: Vec3, b: Vec3): real {
    Sq(a.x - b.x) + Sq(a.y - b.y) + Sq(a.z - b.z)
  }

  lemma DistSq3Symmetric(a: Vec3, b: Vec3)
    ensures DistSq3(a, b) == DistSq3(b, a)
    ensures DistSq3(a, b) >= 0.0
  {
    assert Sq(a.x - b.x) == Sq(b.x - a.x);
    assert Sq(a.y - b.y) == Sq(b.y - a.y);
    assert Sq(a.z - b.z) == Sq(b.z - a.z);
  }
}

=== FILE: packing.dfy ===
/** The setup-time packer, `pack_balls` (ball.rs:108-204).

    Phase A is a relaxation loop meant to push overlapping balls apart; as
    written it runs its body exactly once and never moves a ball. Phase B
    repeatedly scans all ordered pairs and marks for deletion the second
    member of every overlapping pair of which neither member is marked yet,
    until a pass marks nothing. Deletions are deferred commands, so positions
    are fixed throughout Phase B and a marked ball still takes part in the
    scan (it is only excluded from new marks). */
module Packing {
  import opened Geometry
  import opened Balls

  /* ---------------- Phase B ---------------- */

  /** The deletion test of one ordered pair (ball.rs:183-189). */
  predicate Clash(balls: seq<Ball>, cleared: seq<EntityId>, a: EntityId, b: EntityId)
    requires a < |balls| && b < |balls|
  {
    a != b && Overlaps(balls[a], balls[b]) && a !in cleared && b !in cleared
  }

  /** The rest of one scan from the ordered pair (i, j) on, in nested-loop
      order, starting from the marks `cleared`. */
  function ScanFrom(balls: seq<Ball>, cleared: seq<EntityId>, i: nat, j: nat): (r: seq<EntityId>)
    requires i <= |balls| && j <= |balls|
    ensures |cleared| <= |r| && r[..|cleared|] == cleared
    decreases |balls| - i, |balls| - j
  {
    if i == |balls| then cleared
    else if j == |balls| then ScanFrom(balls, cleared, i + 1, 0)
    else if Clash(balls, cleared, i, j) then ScanFrom(balls, cleared + [j], i, j + 1)
    else ScanFrom(balls, cleared, i, j + 1)
  }

  /** One full pass over all ordered pairs. */
  function Pass(balls: seq<Ball>, cleared: seq<EntityId>): seq<EntityId> {
    ScanFrom(balls, cleared, 0, 0)
  }

  predicate Distinct(s: seq<EntityId>) {
    forall a, b :: 0 <= a < b < |s| ==> s[a] != s[b]
  }

  /** Marking `e` after the marks `prior` is allowed: `e` is an unmarked
      ball and overlaps a distinct, unmarked partner. */
  predicate FairMark(balls: seq<Ball>, prior: seq<EntityId>, e: EntityId) {
    && e < |balls| && e !in prior
    && exists a :: 0 <= a < |balls| && a != e && a !in prior && Overlaps(balls[a], balls[e])
  }

  /** Every mark was fair when it was made. */
  predicate Justified(balls: seq<Ball>, cleared: seq<EntityId>)
    decreases |cleared|
  {
    |cleared| == 0 ||
    (Justified(balls, cleared[..|cleared| - 1]) && FairMark(balls, cleared[..|cleared| - 1], cleared[|cleared| - 1]))
  }

  /** No ordered pair would mark anything: no two distinct unmarked balls
      overlap. */
  predicate Settled(balls: seq<Ball>, cleared: seq<EntityId>) {
    forall a, b :: 0 <= a < |balls| && 0 <= b < |balls| ==> !Clash(balls, cleared, a, b)
  }

  /** The pair (a, b) comes before (i, j) in nested-loop order. */
  predicate Before(a: nat, b: nat, i: nat, j: nat) {
    a < i || (a == i && b < j)
  }

  /** Every pair visited before (i, j) would mark nothing any more. */
  predicate HandledUpTo(balls: seq<Ball>, cleared: seq<EntityId>, i: nat, j: nat) {
    forall a, b :: 0 <= a < |balls| && 0 <= b < |balls| && Before(a, b, i, j) ==> !Clash(balls, cleared, a, b)
  }

  lemma {:induction false} ScanSettles(balls: seq<Ball>, cleared: seq<EntityId>, i: nat, j: nat)
    requires i <= |balls| && j <= |balls|
    requires HandledUpTo(balls, cleared, i, j)
    ensures Settled(balls, ScanFrom(balls, cleared, i, j))
    decreases |balls| - i, |balls| - j
  {
    if i == |balls| {
    } else if j == |balls| {
      ScanSettles(balls, cleared, i + 1, 0);
    } else if Clash(balls, cleared, i, j) {
      var next := cleared + [j];
      forall a, b | 0 <= a < |balls| && 0 <= b < |balls| && Before(a, b, i, j + 1)
        ensures !Clash(balls, next, a, b)
      {
        if Before(a, b, i, j) {
          assert !Clash(balls, cleared, a, b);
        } else {
          assert b == j && j in next;
        }
      }
      ScanSettles(balls, next, i, j + 1);
    } else {
      ScanSettles(balls, cleared, i, j + 1);
    }
  }

  lemma {:induction false} ScanKeepsSettled(balls: seq<Ball>, cleared: seq<EntityId>, i: nat, j: nat)
    requires i <= |balls| && j <= |balls|
    requires Settled(balls, cleared)
    ensures ScanFrom(balls, cleared, i, j) == cleared
    decreases |balls| - i, |balls| - j
  {
    if i == |balls| {
    } else if j == |balls| {
      ScanKeepsSettled(balls, cleared, i + 1, 0);
    } else {
      assert !Clash(balls, cleared, i, j);
      ScanKeepsSettled(balls, cleared, i, j + 1);
    }
  }

  /** Marking the second member of a clashing pair is fair. */
  lemma MarkJustified(balls: seq<Ball>, cleared: seq<EntityId>, i: EntityId, j: EntityId)
    requires i < |balls| && j < |balls| && Clash(balls, cleared, i, j)
    requires Justified(balls, cleared)
    ensures Justified(balls, cleared + [j])
  {
    var next := cleared + [j];
    assert next[..|next| - 1] == cleared && next[|next| - 1] == j;
    assert 0 <= i < |balls| && i != j && i !in cleared && Overlaps(balls[i], balls[j]);
  }

  /** Fair marks are never repeated. */
  lemma {:induction false} JustifiedDistinct(balls: seq<Ball>, cleared: seq<EntityId>)
    requires Justified(balls, cleared)
    ensures Distinct(cleared)
    decreases |cleared|
  {
    if |cleared| > 0 {
      var prior := cleared[..|cleared| - 1];
      JustifiedDistinct(balls, prior);
      forall a, b | 0 <= a < b < |cleared|
        ensures cleared[a] != cleared[b]
      {
        assert cleared[a] == prior[a];
        if b < |cleared| - 1 {
          assert cleared[b] == prior[b];
        } else {
          assert cleared[a] in prior;
        }
      }
    }
  }

  lemma {:induction false} ScanJustified(balls: seq<Ball>, cleared: seq<EntityId>, i: nat, j: nat)
    requires i <= |balls| && j <= |balls|
    requires Justified(balls, cleared)
    ensures Justified(balls, ScanFrom(balls, cleared, i, j))
    decreases |balls| - i, |balls| - j
  {
    if i == |balls| {
    } else if j == |balls| {
      ScanJustified(balls, cleared, i + 1, 0);
    } else if Clash(balls, cleared, i, j) {
      MarkJustified(balls, cleared, i, j);
      ScanJustified(balls, cleared + [j], i, j + 1);
    } else {
      ScanJustified(balls, cleared, i, j + 1);
    }
  }

  /** One pass from no marks leaves the balls settled, only ever marks for a
      reason, never marks twice, and a second pass marks nothing. */
  lemma FirstPassSettles(balls: seq<Ball>)
    ensures var r := Pass(balls, []);
      && Settled(balls, r) && Justified(balls, r) && Distinct(r)
      && Pass(balls, r) == r
  {
    ScanSettles(balls, [], 0, 0);
    ScanJustified(balls, [], 0, 0);
    JustifiedDistinct(balls, Pass(balls, []));
    ScanKeepsSettled(balls, Pass(balls, []), 0, 0);
  }

  /** Only a ball that overlaps another ball is ever marked. */
  lemma {:induction false} MarkedOnlyIfTouching(balls: seq<Ball>, cleared: seq<EntityId>)
    requires Justified(balls, cleared)
    ensures forall e :: e in cleared ==> e < |balls| && !Isolated(balls, e)
    decreases |cleared|
  {
    if |cleared| > 0 {
      var prior, e := cleared[..|cleared| - 1], cleared[|cleared| - 1];
      MarkedOnlyIfTouching(balls, prior);
      assert cleared == prior + [e];
      var a :| 0 <= a < |balls| && a != e && a !in prior && Overlaps(balls[a], balls[e]);
      OverlapsSymmetric(balls[a], balls[e]);
      assert Overlaps(balls[e], balls[a]);
    }
  }

  /** Some ball always survives: the partner for which the last mark was made
      is itself unmarked. */
  lemma SomeSurvivor(balls: seq<Ball>, cleared: seq<EntityId>)
    requires |balls| > 0 && Justified(balls, cleared)
    ensures exists e :: 0 <= e < |balls| && e !in cleared
  {
    if |cleared| == 0 {
      assert 0 !in cleared;
    } else {
      var prior, e := cleared[..|cleared| - 1], cleared[|cleared| - 1];
      assert cleared == prior + [e];
      var a :| 0 <= a < |balls| && a != e && a !in prior && Overlaps(balls[a], balls[e]);
      assert a !in cleared;
    }
  }

  /** One scan written as the nested loops of ball.rs:181-201, reporting
      whether it marked anything (the negation of `spaced`). */
  method ScanPass(balls: seq<Ball>, cleared: seq<EntityId>) returns (next: seq<EntityId>, marked: bool)
    ensures next == Pass(balls, cleared)
    ensures marked <==> |next| > |cleared|
  {
    next, marked := cleared, false;
    var i := 0;
    while i < |balls|
      invariant i <= |balls|
      invariant ScanFrom(balls, next, i, 0) == Pass(balls, cleared)
      invariant |cleared| <= |next| && (marked <==> |next| > |cleared|)
    {
      var j := 0;
      while j < |balls|
        invariant j <= |balls|
        invariant ScanFrom(balls, next, i, j) == Pass(balls, cleared)
        invariant |cleared| <= |next| && (marked <==> |next| > |cleared|)
      {
        if Clash(balls, next, i, j) {
          next := next + [j];
          marked := true;
        }
        j := j + 1;
      }
      i := i + 1;
    }
  }

  /** Phase B (ball.rs:176-202): passes until one marks nothing. The first
      pass already settles the balls, so there are exactly two passes when
      anything is marked and one otherwise. */
  method ClearOverlaps(balls: seq<Ball>) returns (cleared: seq<EntityId>, passes: nat)
    ensures cleared == Pass(balls, [])
    ensures Settled(balls, cleared) && Justified(balls, cleared) && Distinct(cleared)
    ensures passes == if cleared == [] then 1 else 2
  {
    FirstPassSettles(balls);
    cleared, passes := [], 0;
    var spaced := false;
    while !spaced
      invariant passes <= 2
      invariant passes == 0 ==> cleared == [] && !spaced
      invariant passes > 0 ==> cleared == Pass(balls, [])
      invariant passes == 1 ==> (spaced <==> cleared == [])
      invariant passes == 2 ==> spaced && cleared != []
      decreases 2 - passes
    {
      spaced := true;
      var next, marked := ScanPass(balls, cleared);
      if marked {
        spaced := false;
      }
      cleared, passes := next, passes + 1;
    }
  }

  /* ---------------- Phase A ---------------- */

  /** The timer that bounds Phase A, in seconds (ball.rs:124). */
  const RelaxBudget: real := 0.1

  /** A pending impulse applied to a ball (ball.rs:136-139): the sum is
      clamped into the viewport shrunk by the radius; the z bounds are 2 and
      0, so the clamp always yields z = 0. */
  function ApplyImpulse(b: Ball, impulse: Vec3, bounds: Bounds): (r: Ball)
    ensures r.velocity == b.velocity && r.size == b.size && r.mass == b.mass
    ensures r.translation.z == 0.0
    ensures var s := b.size as real;
      && (bounds.min.x + s <= bounds.max.x - s ==> bounds.min.x + s <= r.translation.x <= bounds.max.x - s)
      && (bounds.min.y + s <= bounds.max.y - s ==> bounds.min.y + s <= r.translation.y <= bounds.max.y - s)
  {
    var s := b.size as real;
    var lo := Add3(Extend(bounds.min, 1.0), Extend(Vec2(s, s), 1.0));
    var hi := Sub3(Extend(bounds.max, 1.0), Extend(Vec2(s, s), 1.0));
    var t := Add3(b.translation, impulse);
    b.(translation := Vec3(Clamp(t.x, lo.x, hi.x), Clamp(t.y, lo.y, hi.y), Clamp(t.z, lo.z, hi.z)))
  }

  /** Draining the pending impulses: every ball keeps its velocity, size and
      mass; a keyed ball ends at z = 0 inside the viewport shrunk by its radius
      (when that box is not empty); every other ball is left alone. */
  function ApplyPending(balls: seq<Ball>, touching: map<EntityId, Vec3>, bounds: Bounds): (r: seq<Ball>)
    requires forall e :: e in touching ==> e < |balls|
    ensures |r| == |balls|
    ensures forall k :: 0 <= k < |balls| ==>
      r[k].velocity == balls[k].velocity && r[k].size == balls[k].size && r[k].mass == balls[k].mass
    ensures forall k :: 0 <= k < |balls| && k in touching ==>
      var s := balls[k].size as real;
      && r[k].translation.z == 0.0
      && (bounds.min.x + s <= bounds.max.x - s ==> bounds.min.x + s <= r[k].translation.x <= bounds.max.x - s)
      && (bounds.min.y + s <= bounds.max.y - s ==> bounds.min.y + s <= r[k].translation.y <= bounds.max.y - s)
    ensures forall k :: 0 <= k < |balls| && k !in touching ==> r[k] == balls[k]
  {
    seq(|balls|, k requires 0 <= k < |balls| =>
      if k in touching then ApplyImpulse(balls[k], touching[k], bounds) else balls[k])
  }

  /** Ball `e` overlaps some ball of index below `j` other than itself. */
  predicate PartnerBelow(balls: seq<Ball>, e: EntityId, j: nat)
    requires e < |balls| && j <= |balls|
  {
    exists k :: 0 <= k < j && k != e && Overlaps(balls[e], balls[k])
  }

  /** The balls that overlap another ball. */
  function Touching(balls: seq<Ball>): set<EntityId> {
    set e | 0 <= e < |balls| && !Isolated(balls, e)
  }

  /** The accumulation scan of ball.rs:144-173: an entry for every ball that
      overlaps another, its value folded by `kick` (the normalised push plus
      random jitter, left abstract) over the partners in order. */
  method AccumulateImpulses(balls: seq<Ball>, kick: (Vec3, Vec3, Vec3) -> Vec3) returns (touching: map<EntityId, Vec3>)
    ensures touching.Keys == Touching(balls)
  {
    touching := map[];
    var i := 0;
    while i < |balls|
      invariant i <= |balls|
      invariant touching.Keys == set e | 0 <= e < i && !Isolated(balls, e)
    {
      var j := 0;
      while j < |balls|
        invariant j <= |balls|
        invariant touching.Keys == (set e | 0 <= e < i && !Isolated(balls, e)) + (if PartnerBelow(balls, i, j) then {i} else {})
      {
        if Overlaps(balls[i], balls[j]) && i != j {
          var acc := if i in touching then touching[i] else Zero3;
          touching := touching[i := kick(acc, balls[i].translation, balls[j].translation)];
        }
        j := j + 1;
      }
      assert PartnerBelow(balls, i, |balls|) <==> !Isolated(balls, i);
      i := i + 1;
    }
  }

  /** Phase A (ball.rs:124-174). `spaced` starts false and is only ever set to
      true, so the body runs once; the map it drains is still empty at that
      point, and the impulses it then collects are never drained. */
  method Relax(balls: seq<Ball>, bounds: Bounds, kick: (Vec3, Vec3, Vec3) -> Vec3, rawDelta: real)
    returns (positions: seq<Ball>, touching: map<EntityId, Vec3>, rounds: nat)
    ensures rounds == 1
    ensures positions == balls
    ensures touching.Keys == Touching(balls)
  {
    positions, touching, rounds := balls, map[], 0;
    var spaced := false;
    var elapsed := 0.0;
    while !spaced && !(elapsed >= RelaxBudget)
      invariant rounds <= 1 && positions == balls
      invariant rounds == 0 ==> !spaced && touching == map[] && elapsed == 0.0
      invariant rounds == 1 ==> spaced && touching.Keys == Touching(balls)
      decreases 1 - rounds
    {
      positions := ApplyPending(positions, touching, bounds);
      touching := map[];
      spaced := true;
      elapsed := elapsed + rawDelta;
      touching := AccumulateImpulses(positions, kick);
      rounds := rounds + 1;
    }
  }

  /** The whole packer: the balls that survive are those Phase B leaves
      unmarked, at the positions they had on entry. */
  method PackBalls(balls: seq<Ball>, bounds: Bounds, kick: (Vec3, Vec3, Vec3) -> Vec3, rawDelta: real)
    returns (world: seq<Ball>, survivors: set<EntityId>)
    ensures world == balls
    ensures survivors == set e | 0 <= e < |balls| && e !in Pass(balls, [])
    ensures forall a, b :: a in survivors && b in survivors && a != b ==> !Overlaps(world[a], world[b])
    ensures forall e :: 0 <= e < |balls| && Isolated(balls, e) ==> e in survivors
    ensures |balls| > 0 ==> survivors != {}
  {
    var touching, rounds;
    world, touching, rounds := Relax(balls, bounds, kick, rawDelta);
    var cleared, passes := ClearOverlaps(world);
    survivors := set e | 0 <= e < |world| && e !in cleared;
    forall a, b | a in survivors && b in survivors && a != b
      ensures !Overlaps(world[a], world[b])
    {
      assert !Clash(world, cleared, a, b);
    }
    MarkedOnlyIfTouching(balls, cleared);
    if |balls| > 0 {
      SomeSurvivor(balls, cleared);
      var e :| 0 <= e < |balls| && e !in cleared;
      assert e in survivors;
    }
  }

  /** Of two overlapping balls the second is deleted. */
  lemma OverlappingPairClearsSecond(b0: Ball, b1: Ball)
    requires Overlaps(b0, b1)
    ensures Pass([b0, b1], []) == [1]
  {
    var balls := [b0, b1];
    OverlapsSymmetric(b0, b1);
    assert !Clash(balls, [], 0, 0) && Clash(balls, [], 0, 1);
    assert [] + [1] == [1];
    assert ScanFrom(balls, [], 0, 0) == ScanFrom(balls, [1], 0, 2);
    assert ScanFrom(balls, [1], 0, 2) == ScanFrom(balls, [1], 1, 0);
    assert ScanFrom(balls, [1], 1, 0) == ScanFrom(balls, [1], 1, 2);
    assert ScanFrom(balls, [1], 1, 2) == [1];
  }

  /** In a chain 0-1-2 where 0 and 2 are apart, deleting 1 is enough: by the
      time the pair (1, 2) is visited, 1 is already marked. */
  lemma ChainClearsMiddle(b0: Ball, b1: Ball, b2: Ball)
    requires Overlaps(b0, b1) && Overlaps(b1, b2) && !Overlaps(b0, b2)
    ensures Pass([b0, b1, b2], []) == [1]
  {
    ChainFirstRow(b0, b1, b2);
    ChainLaterRows([b0, b1, b2]);
  }

  lemma ChainFirstRow(b0: Ball, b1: Ball, b2: Ball)
    requires Overlaps(b0, b1) && !Overlaps(b0, b2)
    ensures Pass([b0, b1, b2], []) == ScanFrom([b0, b1, b2], [1], 1, 0)
  {
    var balls := [b0, b1, b2];
    assert [] + [1] == [1];
    assert !Clash(balls, [], 0, 0) && Clash(balls, [], 0, 1) && !Clash(balls, [1], 0, 2);
    assert ScanFrom(balls, [], 0, 0) == ScanFrom(balls, [], 0, 1);
    assert ScanFrom(balls, [], 0, 1) == ScanFrom(balls, [1], 0, 2);
    assert ScanFrom(balls, [1], 0, 2) == ScanFrom(balls, [1], 0, 3);
  }

  /** Once ball 1 of three is marked, rows 1 and 2 mark nothing more when
      balls 0 and 2 are apart. */
  lemma ChainLaterRows(balls: seq<Ball>)
    requires |balls| == 3 && !Overlaps(balls[0], balls[2])
    ensures ScanFrom(balls, [1], 1, 0) == [1]
  {
    OverlapsSymmetric(balls[0], balls[2]);
    forall i, j | 1 <= i < 3 && 0 <= j < 3
      ensures !Clash(balls, [1], i, j)
    {
    }
    assert ScanFrom(balls, [1], 1, 0) == ScanFrom(balls, [1], 1, 1);
    assert ScanFrom(balls, [1], 1, 1) == ScanFrom(balls, [1], 1, 2);
    assert ScanFrom(balls, [1], 1, 2) == ScanFrom(balls, [1], 1, 3);
    assert ScanFrom(balls, [1], 2, 0) == ScanFrom(balls, [1], 2, 1);
    assert ScanFrom(balls, [1], 2, 1) == ScanFrom(balls, [1], 2, 2);
    assert ScanFrom(balls, [1], 2, 2) == ScanFrom(balls, [1], 2, 3);
  }


}

=== FILE: response.dfy ===
/** Stage three of the collider: the response to each retained contact
    (particle_sim.rs:139-242), applied in list order.

    A wall contact forces the sign of one velocity component. A ball contact
    reads both balls' positions and velocities, computes the mass-weighted
    elastic velocity update and a de-penetration push for each ball from that
    snapshot, and only then writes the two velocities and the two positions.
    The Euclidean length (a square root) is taken as a parameter. */
module Response {
  import opened Geometry
  import opened Balls

  /** The velocity already points away from wall `w` (or along it). */
  predicate MovingAway(v: Vec2, w: Wall) {
    match w
    case North => v.y <= 0.0
    case South => v.y >= 0.0
    case East => v.x <= 0.0
    case West => v.x >= 0.0
  }

  /** Velocity after a wall contact: the component normal to the wall keeps
      its magnitude and is turned away from the wall; the tangential component
      is untouched. */
  function Reflect(v: Vec2, w: Wall): (r: Vec2)
    ensures (w == North || w == South) ==> r.x == v.x && Abs(r.y) == Abs(v.y)
    ensures (w == East || w == West) ==> r.y == v.y && Abs(r.x) == Abs(v.x)
    ensures MovingAway(r, w)
  {
    match w
    case North => Vec2(v.x, -Abs(v.y))
    case East => Vec2(-Abs(v.x), v.y)
    case West => Vec2(Abs(v.x), v.y)
    case South => Vec2(v.x, Abs(v.y))
  }

  /** A velocity is left alone by a wall's reflection exactly when it already
      points away from that wall; hence reflecting twice is reflecting once. */
  lemma ReflectFixedPoints(v: Vec2, w: Wall)
    ensures Reflect(v, w) == v <==> MovingAway(v, w)
    ensures Reflect(Reflect(v, w), w) == Reflect(v, w)
  {
  }

  /** `(2 * mass_other) / (mass_self + mass_other)`. */
  function MassScalar(m: nat, mOther: nat): real
    requires m + mOther > 0
  {
    2.0 * mOther as real / (m + mOther) as real
  }

  /** `v - mass_scalar * ((v - v_other) . normal) / dist_squared * normal`. */
  function Bounce(v: Vec2, vOther: Vec2, normal: Vec2, massScalar: real, distSq: real): Vec2
    requires distSq > 0.0
  {
    Sub2(v, Scale2(massScalar * Dot2(Sub2(v, vOther), normal) / distSq, normal))
  }

  /** glam's `normalize_or_zero`, given the length: the zero vector when the
      length is not positive. */
  function NormalizeOrZero(n: Vec2, length: Vec2 -> real): Vec2 {
    var l := length(n);
    if l > 0.0 then Scale2(1.0 / l, n) else Zero2
  }

  /** The de-penetration step of one ball, `.extend(1.)` included:
      `normalize_or_zero(normal) * (size - |normal| * (size / (size + other)))`. */
  function Depenetration(normal: Vec2, size: nat, otherSize: nat, length: Vec2 -> real): Vec3
    requires size + otherSize > 0
  {
    var s := size as real;
    Extend(Scale2(s - length(normal) * (s / (size + otherSize) as real), NormalizeOrZero(normal, length)), 1.0)
  }

  /** What a ball contact writes: two velocities and two position increments. */
  datatype PairOutcome = PairOutcome(velocity1: Vec2, velocity2: Vec2, push1: Vec3, push2: Vec3)

  /** The outcome of one ball contact, computed from the two pre-contact
      records only. */
  function PairResponse(a: Ball, b: Ball, length: Vec2 -> real): PairOutcome
    requires a.mass + b.mass > 0 && a.size + b.size > 0
  {
    var d := Max(DistSq3(a.translation, b.translation), 1.0);
    var normal1 := Truncate(Sub3(a.translation, b.translation));
    var normal2 := Truncate(Sub3(b.translation, a.translation));
    PairOutcome(
      Bounce(a.velocity, b.velocity, normal1, MassScalar(a.mass, b.mass), d),
      Bounce(b.velocity, a.velocity, normal2, MassScalar(b.mass, a.mass), d),
      Depenetration(normal1, a.size, b.size, length),
      Depenetration(normal2, b.size, a.size, length))
  }

  /** Sizes and masses are never written by the collider. */
  predicate SameBodies(a: seq<Ball>, b: seq<Ball>) {
    && |a| == |b|
    && forall k :: 0 <= k < |a| ==> a[k].size == b[k].size && a[k].mass == b[k].mass
  }

  /** Ball `k` is read or written when contact `c` is resolved. */
  predicate Involves(c: Contact, k: EntityId) {
    c.subject == k || (c.kind.Entity? && c.kind.other == k)
  }

  /** The contact names balls of the query and its response has no zero
      denominator (two massless or two zero-sized balls). */
  predicate Resolvable(balls: seq<Ball>, c: Contact) {
    && c.subject < |balls|
    && match c.kind
       case Wall(_) => true
       case Entity(o) =>
         && o < |balls|
         && balls[c.subject].mass + balls[o].mass > 0
         && balls[c.subject].size + balls[o].size > 0
  }

  /** Resolution of the ball contact (s, Entity(o)): every value is read first,
      then velocity s, velocity o, position s and position o are written, the
      positions by adding to their current value. */
  function ResolveEntity(balls: seq<Ball>, s: EntityId, o: EntityId, length: Vec2 -> real): (r: seq<Ball>)
    requires Resolvable(balls, Contact(s, Entity(o)))
    ensures SameBodies(balls, r)
    ensures forall k :: 0 <= k < |balls| && k != s && k != o ==> r[k] == balls[k]
  {
    var a, b := balls[s], balls[o];
    var out := PairResponse(a, b, length);
    var w1 := balls[s := a.(velocity := out.velocity1)];
    var w2 := w1[o := w1[o].(velocity := out.velocity2)];
    var w3 := w2[s := w2[s].(translation := Add3(w2[s].translation, out.push1))];
    w3[o := w3[o].(translation := Add3(w3[o].translation, out.push2))]
  }

  /** For two distinct balls the writes of a ball contact depend on the
      snapshot only: velocities and momentum as computed before either write,
      each ball pushed along its own collision normal (the two normals being
      negations of each other) and one unit up in z. */
  lemma ResolveEntitySnapshot(balls: seq<Ball>, s: EntityId, o: EntityId, length: Vec2 -> real)
    requires s != o
    requires Resolvable(balls, Contact(s, Entity(o)))
    ensures var r := ResolveEntity(balls, s, o, length);
      && MomentumConserved(balls[s], balls[o], r[s], r[o])
      && Parallel(Sub3(r[s].translation, balls[s].translation), Sub3(balls[s].translation, balls[o].translation))
      && Parallel(Sub3(r[o].translation, balls[o].translation), Sub3(balls[o].translation, balls[s].translation))
      && r[s].translation.z == balls[s].translation.z + 1.0
      && r[o].translation.z == balls[o].translation.z + 1.0
  {
    ResolveEntityWrites(balls, s, o, length);
    var r := ResolveEntity(balls, s, o, length);
    WrittenPair(balls[s], balls[o], r[s], r[o], length);
  }

  /** Balls that received the writes of a ball contact between `a` and `b`
      carry the snapshot's momentum and were pushed along their normals and
      one unit up in z. */
  lemma WrittenPair(a: Ball, b: Ball, a': Ball, b': Ball, length: Vec2 -> real)
    requires a.mass + b.mass > 0 && a.size + b.size > 0
    requires var out := PairResponse(a, b, length);
      && a' == a.(velocity := out.velocity1, translation := Add3(a.translation, out.push1))
      && b' == b.(velocity := out.velocity2, translation := Add3(b.translation, out.push2))
    ensures MomentumConserved(a, b, a', b')
    ensures Parallel(Sub3(a'.translation, a.translation), Sub3(a.translation, b.translation))
    ensures Parallel(Sub3(b'.translation, b.translation), Sub3(b.translation, a.translation))
    ensures a'.translation.z == a.translation.z + 1.0 && b'.translation.z == b.translation.z + 1.0
  {
    var out := PairResponse(a, b, length);
    PairMomentum(a, b, length);
    PushesAlongNormals(a, b, length);
    assert Sub3(a'.translation, a.translation) == out.push1;
    assert Sub3(b'.translation, b.translation) == out.push2;
  }

  /** The two records a ball contact leaves: each ball gets its new velocity
      and its own push added to its position. */
  lemma ResolveEntityWrites(balls: seq<Ball>, s: EntityId, o: EntityId, length: Vec2 -> real)
    requires s != o
    requires Resolvable(balls, Contact(s, Entity(o)))
    ensures var a, b, r := balls[s], balls[o], ResolveEntity(balls, s, o, length);
      var out := PairResponse(a, b, length);
      && r[s] == a.(velocity := out.velocity1, translation := Add3(a.translation, out.push1))
      && r[o] == b.(velocity := out.velocity2, translation := Add3(b.translation, out.push2))
  {
  }

  /** Total momentum of the two balls is the same before and after. */
  predicate MomentumConserved(a: Ball, b: Ball, a': Ball, b': Ball) {
    && a.mass as real * a'.velocity.x + b.mass as real * b'.velocity.x
       == a.mass as real * a.velocity.x + b.mass as real * b.velocity.x
    && a.mass as real * a'.velocity.y + b.mass as real * b'.velocity.y
       == a.mass as real * a.velocity.y + b.mass as real * b.velocity.y
  }

  /** The plane part of `d` is a multiple of the plane part of `n`. */
  predicate Parallel(d: Vec3, n: Vec3) {
    d.x * n.y == d.y * n.x
  }

  lemma ScalarMomentum(m1: real, m2: real, v1: real, v2: real, w1: real, w2: real, c1: real, c2: real, n: real)
    requires m1 * c1 == m2 * c2
    requires w1 == v1 - c1 * n && w2 == v2 - c2 * (-1.0 * n)
    ensures m1 * w1 + m2 * w2 == m1 * v1 + m2 * v2
  {
    assert m1 * (c1 * n) == (m1 * c1) * n;
    assert m2 * (c2 * (-1.0 * n)) == -((m2 * c2) * n);
  }

  /** The mass scalars are inversely proportional to the masses. */
  lemma BalancedScalars(m1: real, m2: real, ms1: real, ms2: real)
    requires m1 + m2 > 0.0
    requires ms1 == 2.0 * m2 / (m1 + m2) && ms2 == 2.0 * m1 / (m1 + m2)
    ensures m1 * ms1 == m2 * ms2
  {
    var q := 2.0 / (m1 + m2);
    assert ms1 == m2 * q && ms2 == m1 * q;
    assert m1 * (m2 * q) == m2 * (m1 * q);
  }

  /** Balanced scalars weight the shared impulse so that m1 * c1 == m2 * c2. */
  lemma WeightedScalars(m1: real, m2: real, ms1: real, ms2: real, p: real, d: real)
    requires d > 0.0 && m1 * ms1 == m2 * ms2
    ensures m1 * (ms1 * p / d) == m2 * (ms2 * p / d)
  {
    assert m1 * (ms1 * p / d) == (m1 * ms1) * p / d;
    assert m2 * (ms2 * p / d) == (m2 * ms2) * p / d;
  }

  lemma ProjectionMirror(v1: Vec2, v2: Vec2, n: Vec2)
    ensures Dot2(Sub2(v2, v1), Scale2(-1.0, n)) == Dot2(Sub2(v1, v2), n)
  {
    assert (v2.x - v1.x) * (-1.0 * n.x) == (v1.x - v2.x) * n.x;
    assert (v2.y - v1.y) * (-1.0 * n.y) == (v1.y - v2.y) * n.y;
  }

  lemma BounceComponents(v: Vec2, vOther: Vec2, n: Vec2, ms: real, d: real, c: real)
    requires d > 0.0 && c == ms * Dot2(Sub2(v, vOther), n) / d
    ensures Bounce(v, vOther, n, ms, d) == Vec2(v.x - c * n.x, v.y - c * n.y)
  {
    var k := ms * Dot2(Sub2(v, vOther), n) / d;
    assert Bounce(v, vOther, n, ms, d) == Sub2(v, Scale2(k, n));
    assert Scale2(k, n) == Vec2(c * n.x, c * n.y);
  }

  /** Opposite impulses along `n` and `-n`, weighted so that m1 * c1 == m2 * c2,
      keep the momentum in both components. */
  lemma ImpulseMomentum(v1: Vec2, v2: Vec2, n: Vec2, m1: real, m2: real, c1: real, c2: real)
    requires m1 * c1 == m2 * c2
    ensures var w1, w2 := Vec2(v1.x - c1 * n.x, v1.y - c1 * n.y), Vec2(v2.x - c2 * (-1.0 * n.x), v2.y - c2 * (-1.0 * n.y));
      && m1 * w1.x + m2 * w2.x == m1 * v1.x + m2 * v2.x
      && m1 * w1.y + m2 * w2.y == m1 * v1.y + m2 * v2.y
  {
    ScalarMomentum(m1, m2, v1.x, v2.x, v1.x - c1 * n.x, v2.x - c2 * (-1.0 * n.x), c1, c2, n.x);
    ScalarMomentum(m1, m2, v1.y, v2.y, v1.y - c1 * n.y, v2.y - c2 * (-1.0 * n.y), c1, c2, n.y);
  }

  /** Momentum balance of the velocity formula for any scalars inversely
      proportional to the masses. */
  lemma BalancedBounce(v1: Vec2, v2: Vec2, n: Vec2, m1: real, m2: real, ms1: real, ms2: real, d: real)
    requires d > 0.0 && m1 * ms1 == m2 * ms2
    ensures var w1, w2 := Bounce(v1, v2, n, ms1, d), Bounce(v2, v1, Scale2(-1.0, n), ms2, d);
      && m1 * w1.x + m2 * w2.x == m1 * v1.x + m2 * v2.x
      && m1 * w1.y + m2 * w2.y == m1 * v1.y + m2 * v2.y
  {
    var p := Dot2(Sub2(v1, v2), n);
    ProjectionMirror(v1, v2, n);
    var c1, c2 := ms1 * p / d, ms2 * p / d;
    BounceComponents(v1, v2, n, ms1, d, c1);
    BounceComponents(v2, v1, Scale2(-1.0, n), ms2, d, c2);
    WeightedScalars(m1, m2, ms1, ms2, p, d);
    ImpulseMomentum(v1, v2, n, m1, m2, c1, c2);
  }

  /** Momentum balance of the velocity formula itself, for any normal. */
  lemma BounceMomentum(v1: Vec2, v2: Vec2, n: Vec2, m1: real, m2: real, ms1: real, ms2: real, d: real)
    requires m1 + m2 > 0.0 && d > 0.0
    requires ms1 == 2.0 * m2 / (m1 + m2) && ms2 == 2.0 * m1 / (m1 + m2)
    ensures var w1, w2 := Bounce(v1, v2, n, ms1, d), Bounce(v2, v1, Scale2(-1.0, n), ms2, d);
      && m1 * w1.x + m2 * w2.x == m1 * v1.x + m2 * v2.x
      && m1 * w1.y + m2 * w2.y == m1 * v1.y + m2 * v2.y
  {
    BalancedScalars(m1, m2, ms1, ms2);
    BalancedBounce(v1, v2, n, m1, m2, ms1, ms2, d);
  }

  /** The two velocity updates of a ball contact conserve momentum. This holds
      only because both are computed from the pre-contact snapshot. */
  lemma PairMomentum(a: Ball, b: Ball, length: Vec2 -> real)
    requires a.mass + b.mass > 0 && a.size + b.size > 0
    ensures var out := PairResponse(a, b, length);
      MomentumConserved(a, b, a.(velocity := out.velocity1), b.(velocity := out.velocity2))
  {
    var d := Max(DistSq3(a.translation, b.translation), 1.0);
    var n1 := Truncate(Sub3(a.translation, b.translation));
    assert Truncate(Sub3(b.translation, a.translation)) == Scale2(-1.0, n1);
    var m1, m2 := a.mass as real, b.mass as real;
    assert MassScalar(a.mass, b.mass) == 2.0 * m2 / (m1 + m2);
    assert MassScalar(b.mass, a.mass) == 2.0 * m1 / (m1 + m2);
    BounceMomentum(a.velocity, b.velocity, n1, m1, m2, MassScalar(a.mass, b.mass), MassScalar(b.mass, a.mass), d);
  }

  /** Normalising keeps the direction (or gives the zero vector). */
  lemma NormalizedParallel(n: Vec2, length: Vec2 -> real)
    ensures var u := NormalizeOrZero(n, length); u.x * n.y == u.y * n.x
  {
    if length(n) > 0.0 {
      var c := 1.0 / length(n);
      assert (c * n.x) * n.y == c * (n.x * n.y);
      assert (c * n.y) * n.x == c * (n.x * n.y);
    }
  }

  lemma ScaledParallel(k: real, u: Vec2, n: Vec3)
    requires u.x * n.y == u.y * n.x
    ensures Parallel(Extend(Scale2(k, u), 1.0), n)
  {
    assert (k * u.x) * n.y == k * (u.x * n.y);
    assert (k * u.y) * n.x == k * (u.y * n.x);
  }

  /** One ball's de-penetration step lies along the normal it is computed
      from and lifts the ball one unit in z. */
  lemma DepenetrationAlong(d: Vec3, size: nat, otherSize: nat, length: Vec2 -> real)
    requires size + otherSize > 0
    ensures var push := Depenetration(Truncate(d), size, otherSize, length);
      Parallel(push, d) && push.z == 1.0
  {
    var n := Truncate(d);
    var u := NormalizeOrZero(n, length);
    NormalizedParallel(n, length);
    var k := size as real - length(n) * (size as real / (size + otherSize) as real);
    ScaledParallel(k, u, d);
    assert Depenetration(n, size, otherSize, length) == Extend(Scale2(k, u), 1.0);
  }

  /** Each ball is pushed along its own collision normal, and the two normals
      are exact negations of each other. */
  lemma PushesAlongNormals(a: Ball, b: Ball, length: Vec2 -> real)
    requires a.mass + b.mass > 0 && a.size + b.size > 0
    ensures var out := PairResponse(a, b, length);
      && Parallel(out.push1, Sub3(a.translation, b.translation))
      && Parallel(out.push2, Sub3(b.translation, a.translation))
      && out.push1.z == 1.0 && out.push2.z == 1.0
    ensures Truncate(Sub3(b.translation, a.translation)) == Scale2(-1.0, Truncate(Sub3(a.translation, b.translation)))
  {
    var d1, d2 := Sub3(a.translation, b.translation), Sub3(b.translation, a.translation);
    DepenetrationAlong(d1, a.size, b.size, length);
    DepenetrationAlong(d2, b.size, a.size, length);
    var out := PairResponse(a, b, length);
    assert out.push1 == Depenetration(Truncate(d1), a.size, b.size, length);
    assert out.push2 == Depenetration(Truncate(d2), b.size, a.size, length);
  }

  /** Resolving (s, Entity(o)) and resolving its mirror (o, Entity(s)) write
      exactly the same values: a mirrored report that survives dedup resolves
      the same physical contact a second time. */
  lemma ResolveEntityMirror(balls: seq<Ball>, s: EntityId, o: EntityId, length: Vec2 -> real)
    requires s != o
    requires Resolvable(balls, Contact(s, Entity(o)))
    ensures Resolvable(balls, Contact(o, Entity(s)))
    ensures ResolveEntity(balls, s, o, length) == ResolveEntity(balls, o, s, length)
  {
    var a, b := balls[s], balls[o];
    DistSq3Symmetric(a.translation, b.translation);
    assert a.mass + b.mass == b.mass + a.mass;
    assert a.size + b.size == b.size + a.size;
    var out := PairResponse(a, b, length);
    var tuo := PairResponse(b, a, length);
    assert out.velocity1 == tuo.velocity2 && out.velocity2 == tuo.velocity1;
    assert out.push1 == tuo.push2 && out.push2 == tuo.push1;
  }

  /** Two balls of equal mass meeting head-on along the line of their centres
      with opposite velocities of equal size swap velocities, at a centre
      distance of at least 1, where the floor on the squared distance does not
      apply. */
  lemma EqualMassHeadOnSwap(m: nat, size: nat, u: real, x: real, z: real, length: Vec2 -> real)
    requires m > 0 && size > 0 && x * x >= 1.0
    ensures var a := Ball(Vec3(0.0, 0.0, z), Vec2(u, 0.0), size, m);
            var b := Ball(Vec3(x, 0.0, z), Vec2(-u, 0.0), size, m);
            var out := PairResponse(a, b, length);
            out.velocity1 == Vec2(-u, 0.0) && out.velocity2 == Vec2(u, 0.0)
  {
    var a := Ball(Vec3(0.0, 0.0, z), Vec2(u, 0.0), size, m);
    var b := Ball(Vec3(x, 0.0, z), Vec2(-u, 0.0), size, m);
    assert DistSq3(a.translation, b.translation) == x * x;
    assert MassScalar(m, m) == 1.0;
    var d := x * x;
    assert 1.0 * Dot2(Sub2(a.velocity, b.velocity), Vec2(-x, 0.0)) / d * (-x) == 2.0 * u;
    assert 1.0 * Dot2(Sub2(b.velocity, a.velocity), Vec2(x, 0.0)) / d * x == -2.0 * u;
  }

  lemma ResolvableKept(balls: seq<Ball>, balls': seq<Ball>, cs: seq<Contact>)
    requires SameBodies(balls, balls')
    requires forall c :: c in cs ==> Resolvable(balls, c)
    ensures forall c :: c in cs ==> Resolvable(balls', c)
  {
    forall c | c in cs
      ensures Resolvable(balls', c)
    {
      if c.kind.Entity? {
        assert balls'[c.subject].mass == balls[c.subject].mass && balls'[c.kind.other].mass == balls[c.kind.other].mass;
        assert balls'[c.subject].size == balls[c.subject].size && balls'[c.kind.other].size == balls[c.kind.other].size;
      }
    }
  }

  /** The response to one retained contact. */
  function ResolveContact(balls: seq<Ball>, c: Contact, length: Vec2 -> real): (r: seq<Ball>)
    requires Resolvable(balls, c)
    ensures SameBodies(balls, r)
    ensures forall k :: 0 <= k < |balls| && !Involves(c, k) ==> r[k] == balls[k]
    ensures c.kind.Wall? ==> r[c.subject].translation == balls[c.subject].translation
    ensures c.kind.Wall? ==> MovingAway(r[c.subject].velocity, c.kind.wall)
  {
    match c.kind
    case Wall(w) => balls[c.subject := balls[c.subject].(velocity := Reflect(balls[c.subject].velocity, w))]
    case Entity(o) => ResolveEntity(balls, c.subject, o, length)
  }

  /** The responses to all retained contacts, in list order. A ball no contact
      involves is left exactly as it was. */
  function ResolveAll(balls: seq<Ball>, cs: seq<Contact>, length: Vec2 -> real): (r: seq<Ball>)
    requires forall c :: c in cs ==> Resolvable(balls, c)
    ensures SameBodies(balls, r)
    ensures forall k :: 0 <= k < |balls| && (forall c :: c in cs ==> !Involves(c, k)) ==> r[k] == balls[k]
    decreases |cs|
  {
    if |cs| == 0 then balls
    else
      var next := ResolveContact(balls, cs[0], length);
      assert forall c :: c in cs[1..] ==> c in cs;
      ResolvableKept(balls, next, cs[1..]);
      ResolveAll(next, cs[1..], length)
  }
}

=== FILE: setup.dfy ===
/** Ball creation and placement at setup (ball.rs:53-106). Random draws are
    nondeterministic choices from the half-open ranges the code samples; an
    empty range makes the random generator panic, so it is a precondition. */
module Setup {
  import opened Geometry
  import opened Balls
  import opened Detection
  import opened Collider

  /** A half-open range `start..end` of unsigned integers. */
  datatype NatRange = NatRange(start: nat, end: nat)

  /** A half-open range `start..end` of floats. */
  datatype RealRange = RealRange(start: real, end: real)

  predicate InNat(n: nat, r: NatRange) {
    r.start <= n < r.end
  }

  predicate InReal(x: real, r: RealRange) {
    r.start <= x < r.end
  }

  /** The simulation parameters (lib.rs:6-12). */
  datatype Simulation = Simulation(numBalls: nat, sizeRange: NatRange, massRange: NatRange, velocityRange: RealRange)

  /** The parameters `Simulation::default()` supplies (lib.rs:14-23). */
  const DefaultSimulation: Simulation :=
    Simulation(10, NatRange(10, 20), NatRange(4, 5), RealRange(-1.0, 1.0))

  /** What a freshly created ball looks like: radius, mass and both velocity
      components drawn from their ranges, at the default (zero) translation. */
  predicate Created(sim: Simulation, b: Ball) {
    && InNat(b.size, sim.sizeRange)
    && InNat(b.mass, sim.massRange)
    && InReal(b.velocity.x, sim.velocityRange)
    && InReal(b.velocity.y, sim.velocityRange)
    && b.translation == Zero3
  }

  /** The sampling ranges can be drawn from. */
  predicate Drawable(sim: Simulation) {
    && sim.sizeRange.start < sim.sizeRange.end
    && sim.massRange.start < sim.massRange.end
    && sim.velocityRange.start < sim.velocityRange.end
  }

  /** `create_balls`: `num_balls` balls, each drawn independently. No range
      is sampled when `num_balls` is zero. */
  method CreateBalls(sim: Simulation) returns (balls: seq<Ball>)
    requires sim.numBalls > 0 ==> Drawable(sim)
    ensures |balls| == sim.numBalls
    ensures forall k :: 0 <= k < |balls| ==> Created(sim, balls[k])
  {
    balls := [];
    while |balls| < sim.numBalls
      invariant |balls| <= sim.numBalls
      invariant forall k :: 0 <= k < |balls| ==> Created(sim, balls[k])
    {
      assert InNat(sim.sizeRange.start, sim.sizeRange) && InNat(sim.massRange.start, sim.massRange);
      assert InReal(sim.velocityRange.start, sim.velocityRange);
      var size: nat :| InNat(size, sim.sizeRange);
      var mass: nat :| InNat(mass, sim.massRange);
      var vx :| InReal(vx, sim.velocityRange);
      var vy :| InReal(vy, sim.velocityRange);
      balls := balls + [Ball(Zero3, Vec2(vx, vy), size, mass)];
    }
  }

  /** With the default parameters every ball's mass is drawn from 4..5, so it
      is 4. Mass is never written after creation, so wherever the balls are
      placed and however they move, no two of them are both massless and the
      collider's precondition holds. */
  lemma DefaultBallsNoMasslessPair(balls: seq<Ball>)
    requires forall k :: 0 <= k < |balls| ==> InNat(balls[k].mass, DefaultSimulation.massRange)
    ensures NoMasslessPair(balls)
  {
    forall i, j | 0 <= i < |balls| && 0 <= j < |balls| && i != j && Overlaps(balls[i], balls[j])
      ensures balls[i].mass + balls[j].mass > 0
    {
      assert InNat(balls[i].mass, DefaultSimulation.massRange);
    }
  }

  /** Where `space_balls` may put a ball: x in `[min.x + r, max.x - r)`, y in
      `[min.y + r, max.y - r)`, z = 0 (ball.rs:99-104). */
  predicate Placed(bounds: Bounds, before: Ball, after: Ball) {
    var s := before.size as real;
    && InReal(after.translation.x, RealRange(bounds.min.x + s, bounds.max.x - s))
    && InReal(after.translation.y, RealRange(bounds.min.y + s, bounds.max.y - s))
    && after.translation.z == 0.0
    && after.velocity == before.velocity && after.size == before.size && after.mass == before.mass
  }

  /** The viewport has room for the ball in both directions (otherwise the
      placement range is empty and sampling panics). */
  predicate Fits(bounds: Bounds, b: Ball) {
    var s := b.size as real;
    bounds.min.x + s < bounds.max.x - s && bounds.min.y + s < bounds.max.y - s
  }

  /** `space_balls`: every ball gets a fresh random position in range. */
  method SpaceBalls(balls: seq<Ball>, bounds: Bounds) returns (placed: seq<Ball>)
    requires forall k :: 0 <= k < |balls| ==> Fits(bounds, balls[k])
    ensures |placed| == |balls|
    ensures forall k :: 0 <= k < |balls| ==> Placed(bounds, balls[k], placed[k])
  {
    placed := [];
    while |placed| < |balls|
      invariant |placed| <= |balls|
      invariant forall k :: 0 <= k < |placed| ==> Placed(bounds, balls[k], placed[k])
    {
      var b := balls[|placed|];
      var s := b.size as real;
      var xs, ys := RealRange(bounds.min.x + s, bounds.max.x - s), RealRange(bounds.min.y + s, bounds.max.y - s);
      assert InReal(xs.start, xs) && InReal(ys.start, ys);
      var x :| InReal(x, xs);
      var y :| InReal(y, ys);
      placed := placed + [b.(translation := Vec3(x, y, 0.0))];
    }
  }

  /** A freshly placed ball is clear of every wall: the collider's detection
      records no wall contact for it. */
  lemma PlacedClearOfWalls(bounds: Bounds, before: Ball, after: Ball)
    requires Placed(bounds, before, after)
    ensures WallContact(after, bounds).None?
  {
  }
}

=== FILE: wrappers.dfy ===
/** The optional value the collider's wall check returns. */
module Wrappers {

  datatype Option<T> = None | Some(value: T)
}
